=== FILE: README.md ===
# InventoryIQ decision core in Dafny

InventoryIQ turns precomputed demand forecasts into an inventory plan for a
retail dashboard. This project models the decision logic around that data
and proves properties of it:

- **Plan assembly** (`InventoryPlanning`, `InventoryMetrics`). Recommendation
  rows are enriched with a market (from the store's region), display names
  and a relative risk level. The safety-buffer ratio is compared with its
  quartiles. Rows are filtered by market and category and summarised. The
  rows are then ranked High before Medium before Low, larger orders first,
  and cut to `limit`. The metrics endpoint applies step functions to the
  same filtered rows.
- **Order recommendation** (`InventoryService`). Safety stock, the
  non-negative order quantity, and tercile risk labels from linearly
  interpolated volatility percentiles.
- **Market intelligence** (`MarketIntelligence`). The market-pressure index
  gives an attention level; demand trend and strategy advice follow fixed
  precedence rules. The insight list is stably sorted by attention.
- **Small services** (`ConfidenceService`, `ScenarioService`, `Analytics`).
  The confidence band, the what-if simulation, and the demand metrics of a
  product's time series.
- **Browser side** (`ScenarioEngine`, `Debounce`, `DashboardView`). The
  scenario multiplier rescales the plan rows, and the snapshot card totals
  three outlooks. The slider is debounced. The table, summary banner and
  operational advice derive their labels from the rows.

Shared modules:

- `Numeric` holds the rounding rules. JavaScript `Math.round` rounds half
  up, `Math.ceil` rounds up. Python `round` rounds half to even, `int()`
  truncates, and `round(x, d)` rounds at the d-th decimal.
- `Text` holds ASCII trimming (Python `strip` and JavaScript `trim`, each with its own white space), lower-casing and substring search.
- `Seqs` holds order-keeping filters and sums.
- `Sorting` holds a stable insertion sort.
- `RiskLevels` holds the three-valued risk level with its name, its priority
  and per-level counts.

All quantities are exact `real`s. Every operation is a pure function over
sequences of records. File reading, HTTP and the DOM are replaced by
parameters.

In these places the model follows the code where a reader might expect
otherwise:

- The scenario handler redraws the table, the chart labels and the snapshot
  card, but not the summary banner (`app.js:583-596`). The banner keeps
  quoting the plan's totals (`DashboardView.ScenariosLeaveBanner`, `DashboardView.BannerIgnoresScenario`).
- The snapshot card's ±30% totals are taken from the rows currently shown.
  After a scenario these are the rescaled rows, not the base plan
  (`app.js:595`, `app.js:948-950`).
- Attention levels use the thresholds in the code, 0.98 and 0.93. The
  docstring gives 0.95 and 0.90.
- The market service recognises "all" only in lower case. The planning
  router recognises it in any letter case.

## Model

| member | source | states |
|---|---|---|
| InventoryPlanning.MarketOf | backend/app/routers/inventory_planning.py:30-35 | a mapped region gives its market (North → North America, South and East → APAC, West → Europe); a missing or unmapped region gives "Other" |
| InventoryPlanning.MarketsAreKnown | backend/app/routers/inventory_planning.py:74 | every row lands in one of North America, APAC, Europe or Other |
| InventoryPlanning.CategoryDisplay | backend/app/routers/inventory_planning.py:38-44 | a known category shows its business display name; an unknown one shows itself |
| InventoryPlanning.ProductDisplayName | backend/app/routers/inventory_planning.py:82-98 | a name in the data wins, stripped of Python's white space (separators U+001C to U+001F included), even when it strips to nothing; otherwise the fixed id table; otherwise "Product <id>" |
| InventoryPlanning.FallbackNameVisible | backend/app/routers/inventory_planning.py:94-98 | with no name in the data the displayed name is never blank |
| InventoryPlanning.SafetyBufferRatio | backend/app/routers/inventory_planning.py:105-108 | the ratio is (order − forecast) / forecast; a zero forecast gives +∞ for a positive order and NaN for a zero order, and −∞ only for a negative order |
| InventoryPlanning.AssignRiskLevel | backend/app/routers/inventory_planning.py:117-128 | High iff ratio ≥ p75, Medium iff p25 ≤ ratio < p75, Low otherwise; NaN fails both comparisons and is Low |
| InventoryPlanning.AssignRiskMonotone | backend/app/routers/inventory_planning.py:117-130 | with p25 ≤ p75 a larger ratio never gets a lower level, and Medium is exactly the band p25 ≤ ratio < p75 |
| InventoryPlanning.LoadRecommendations | backend/app/routers/inventory_planning.py:74-130 | each input row is kept in place and given its market, category display name, product display name and risk level |
| InventoryPlanning.FilterRows | backend/app/routers/inventory_planning.py:224-232 | a row is kept iff its market and raw category match the filters ignoring case; a missing, empty or any-case "all" filter keeps every row; a kept row occurs as often as in the input |
| InventoryPlanning.FilterRowsSnoc | backend/app/routers/inventory_planning.py:224-232 | appending a row appends it to the selection iff it passes both filters, so the selection keeps table order |
| InventoryPlanning.ContextLabel | backend/app/routers/inventory_planning.py:244-245 | the filter text, or the fallback when the filter is missing or empty |
| InventoryPlanning.EmptySummary | backend/app/routers/inventory_planning.py:234-249 | every count and total is 0; contexts default to "All Markets" and "All Categories" |
| InventoryPlanning.AvgSafetyPct | backend/app/routers/inventory_planning.py:251-264 | 0 when the total forecast is not positive; otherwise ten times the percentage is the half-even rounding of ten times the exact total safety percentage, within 0.05 of it |
| InventoryPlanning.Summarize | backend/app/routers/inventory_planning.py:251-270 | total_items is the number of filtered rows; the per-level counts add up to it; the totals are the half-even roundings of the exact sums; the average buffer is AvgSafetyPct of the two totals |
| InventoryPlanning.RowSafetyPct | backend/app/routers/inventory_planning.py:282 | 0 when the row's forecast is not positive; otherwise the row's safety percentage rounded half-even at one decimal |
| InventoryPlanning.ToPlanItem | backend/app/routers/inventory_planning.py:284-294 | the entry carries the row's id, display names, market and level; the forecast is the half-even rounding of the row's; order and safety stock are truncated |
| InventoryPlanning.PlanOrderIsStrictWeak | backend/app/routers/inventory_planning.py:273-277 | ranking by risk priority, then by larger order quantity, is a strict weak order |
| InventoryPlanning.TopRecommendations | backend/app/routers/inventory_planning.py:275-278 | min(limit, n) rows, sorted, drawn from the input, and no row left out ranks ahead of a row kept |
| InventoryPlanning.RankingSurvivesConversion | backend/app/routers/inventory_planning.py:281-294 | converting ranked rows to entries keeps High before Medium before Low and non-increasing order quantity within a level |
| InventoryPlanning.RankedItems | backend/app/routers/inventory_planning.py:273-294 | min(limit, n) entries, ranked; entry i is the conversion of the i-th of the top rows in listing order |
| InventoryPlanning.GetInventoryPlan | backend/app/routers/inventory_planning.py:168-300 | a limit outside 1..100 is rejected; no data gives no summary and no entries; no match gives the empty summary and no entries; otherwise the summary of the matching rows and their ranked top-limit entries |
| InventoryPlanning.PlanRecommendationsAreTop | backend/app/routers/inventory_planning.py:273-294 | the entries are the converted top rows of the selection, and no matching row left out ranks ahead of a listed one |
| InventoryMetrics.BufferPct | backend/app/routers/inventory_planning.py:351 | the half-even rounding of the aggregate safety buffer as a percentage of the forecast, within 0.5 of it; 0 when the total forecast is not positive |
| InventoryMetrics.StockoutRiskAvoided | backend/app/routers/inventory_planning.py:355-362 | 95 above 150, 85 in (100, 150], 75 in (50, 100], 60 otherwise |
| InventoryMetrics.StockoutRiskMonotone | backend/app/routers/inventory_planning.py:355-362 | a larger buffer never reports less stockout protection |
| InventoryMetrics.ExpectedServiceLevel | backend/app/routers/inventory_planning.py:365 | 99 iff 50 plus half the buffer, truncated, reaches 99; otherwise exactly that value |
| InventoryMetrics.ServiceLevelMonotone | backend/app/routers/inventory_planning.py:365 | the service level grows with the buffer and reaches 99 from a buffer of 98 |
| InventoryMetrics.CostDirectionOf | backend/app/routers/inventory_planning.py:372-380 | rising iff high share > 50, level iff in (25, 50], falling iff ≤ 25 |
| InventoryMetrics.CostTextOf | backend/app/routers/inventory_planning.py:372-380 | the sentence kind follows the direction; it quotes the truncated high share, or the truncated low share in the lean case |
| InventoryMetrics.SharePct | backend/app/routers/inventory_planning.py:369-370 | the share times the total equals 100 times the count; 0 with no rows |
| InventoryMetrics.ShareThresholds | backend/app/routers/inventory_planning.py:369-379 | the 50% and 25% thresholds are 2·count > total and 4·count > total |
| InventoryMetrics.EmptyMetricsResponse | backend/app/routers/inventory_planning.py:416-438 | zero figures, service level 95, a level arrow, "No data", no per-level counts |
| InventoryMetrics.LevelCounts | backend/app/routers/inventory_planning.py:344-347 | the per-level counts of the rows, adding up to their number |
| InventoryMetrics.FilteredMetrics | backend/app/routers/inventory_planning.py:339-413 | for matching rows: the counts are the per-level counts; the buffer percentage is BufferPct of the totals and drives the stockout figure and the service level; the cost sentence is CostTextOf the high and low shares; rising/falling is 2·high > n / 4·high ≤ n; lost units are 5% of the forecast rounded half-even |
| InventoryMetrics.GetInventoryMetrics | backend/app/routers/inventory_planning.py:308-413 | the empty response iff no row matches; otherwise the metrics of the matching rows; the items analysed are those rows and the counts add up to them |
| InventoryMetrics.PlanAndMetricsAgree | backend/app/routers/inventory_planning.py:258-348 | for the same filters the plan summary and the metrics context count the same rows at each level |
| InventoryService.SafetyStock | backend/app/services/inventory_service.py:21-25 | a volatility of 1 gives the Z score; zero volatility gives zero; non-negative inputs give a non-negative result |
| InventoryService.SafetyStockProportional | backend/app/services/inventory_service.py:21-25 | safety stock is proportional to volatility: scaling the volatility by k scales the stock by k |
| InventoryService.SafetyStockMonotone | backend/app/services/inventory_service.py:21-25 | more volatility never lowers safety stock for a non-negative Z score |
| InventoryService.Recommend | backend/app/services/inventory_service.py:28-44 | the order quantity is the half-even rounding of forecast plus safety stock, clamped at 0; forecast and safety stock are rounded to two decimals; the volatility is echoed |
| InventoryService.SortAscending | backend/app/services/inventory_service.py:65-66 | a sorted permutation of the volatilities |
| InventoryService.PercentileOfSorted | backend/app/services/inventory_service.py:65-66 | the value at fractional position p% of the way along the sorted list: the element there when the position is whole, else linear interpolation to the next; p = 0 and p = 100 give the first and last elements |
| InventoryService.PercentileMonotone | backend/app/services/inventory_service.py:65-66 | a higher percentile rank never gives a smaller value |
| InventoryService.Percentile | backend/app/services/inventory_service.py:65-66 | the interpolated percentile of the sorted values; it lies between their minimum and maximum; p = 0 gives the minimum and p = 100 the maximum |
| InventoryService.SortedEndsAreExtremes | backend/app/services/inventory_service.py:65-66 | the ends of a sorted permutation are the minimum and the maximum of the values |
| InventoryService.VolatilityRisk | backend/app/services/inventory_service.py:71-76 | Low iff vol ≤ p33, Medium iff p33 < vol ≤ p66, High otherwise |
| InventoryService.ApplyRelativeRisk | backend/app/services/inventory_service.py:47-78 | an empty list comes back unchanged; otherwise same length and order, only the risk label set, each label given by the item's volatility against the 33rd and 66th percentiles |
| InventoryService.ThresholdsOrdered | backend/app/services/inventory_service.py:65-66 | p33 ≤ p66 |
| InventoryService.RelativeRiskMonotone | backend/app/services/inventory_service.py:68-76 | a more volatile item never gets a lower label |
| InventoryService.LeastVolatileIsLow | backend/app/services/inventory_service.py:65-72 | the least volatile item is always Low |
| MarketIntelligence.GetMarkets | backend/app/services/market_intelligence_service.py:59-68 | the market names in table order; none for an empty table |
| MarketIntelligence.AttentionLevel | backend/app/services/market_intelligence_service.py:123-132 | High iff index ≥ 0.98, Medium iff 0.93 ≤ index < 0.98, Low otherwise |
| MarketIntelligence.AttentionMonotone | backend/app/services/market_intelligence_service.py:123-132 | more pressure never lowers the attention level |
| MarketIntelligence.ExplanationTail | backend/app/services/market_intelligence_service.py:126-132 | each level's sentence closes with that level's advice (replenish, monitor, or standard planning) |
| MarketIntelligence.Explanation | backend/app/services/market_intelligence_service.py:126-132 | the explanation is the market name followed by its level's sentence, and so closes with that level's advice |
| MarketIntelligence.ExplanationDistinguishesLevels | backend/app/services/market_intelligence_service.py:124-132 | different levels never share an explanation |
| MarketIntelligence.DemandTrend | backend/app/services/market_intelligence_service.py:134-140 | volatility > 100 takes precedence over average demand > 950; otherwise stable |
| MarketIntelligence.SimplifyStrategy | backend/app/services/market_intelligence_service.py:150-164 | empty → review; otherwise the first of "optimize", "safety stock", "reduce" mentioned in any case decides, else continue |
| MarketIntelligence.SimplifyIgnoresCase | backend/app/services/market_intelligence_service.py:157-161 | lower-casing the strategy first never changes the advice |
| MarketIntelligence.TransformToInsight | backend/app/services/market_intelligence_service.py:105-148 | absent columns take the defaults 0.5, 0, 0 and ""; a row without an index gets Low; fields follow the level, trend and strategy rules |
| MarketIntelligence.SelectMarkets | backend/app/services/market_intelligence_service.py:89-93 | a missing, empty or exactly "all" filter keeps every row; otherwise a row is kept iff its market equals the filter ignoring case, as often as in the table |
| MarketIntelligence.SelectMarketsSnoc | backend/app/services/market_intelligence_service.py:89-93 | appending a row appends it to the selection iff the filter keeps it, so the selection keeps table order |
| MarketIntelligence.SortGroupsByLevel | backend/app/services/market_intelligence_service.py:99-101 | the sort is stable: High insights, then Medium, then Low, each group in input order |
| MarketIntelligence.GetMarketSummary | backend/app/services/market_intelligence_service.py:70-103 | no table or no match gives []; otherwise one insight per selected row, sorted High, Medium, Low and stable within a level |
| MarketIntelligence.SummaryCoversMarkets | backend/app/services/market_intelligence_service.py:59-97 | unfiltered, the summary names every market of the table exactly as often as the table does |
| ConfidenceService.ConfidenceBand | backend/app/services/confidence_service.py:5-26 | margin 1.96·std when std ≠ 0, else 0.15·forecast; upper − forecast = margin; lower ≥ 0; lower ≤ forecast ≤ upper for non-negative inputs |
| ConfidenceService.ConfidenceLevelIgnored | backend/app/services/confidence_service.py:5-25 | the confidence level has no effect on the band |
| ConfidenceService.BandSymmetricUnlessClipped | backend/app/services/confidence_service.py:23-24 | unless clipped at zero the band is symmetric around the forecast |
| ScenarioService.Simulate | backend/app/services/scenario_service.py:5-24 | echoes base and multiplier; adjusted = base·multiplier; difference = adjusted − base; percent change 0 for base 0, else (multiplier − 1)·100 |
| ScenarioService.NeutralMultiplier | backend/app/services/scenario_service.py:16-23 | a multiplier of 1 gives no difference and no change |
| ScenarioService.GrowthIffMultiplierAboveOne | backend/app/services/scenario_service.py:16-22 | for a positive base the forecast grows iff the multiplier exceeds 1 |
| Analytics.DemandStats | backend/app/routers/analytics.py:31-36 | for no values avg, peak and min are all 0; otherwise peak and min are values, min ≤ every value ≤ peak, and min ≤ avg ≤ peak |
| Analytics.Valid | backend/app/routers/analytics.py:31-32 | the kept entries are exactly the numeric ones |
| Analytics.ValidAppend | backend/app/routers/analytics.py:31-32 | the kept entries of a concatenation are the concatenation of the kept entries |
| Analytics.ValidSnoc | backend/app/routers/analytics.py:31-32 | appending an entry appends its number iff it is numeric, so order is kept |
| Analytics.TrendOf | backend/app/routers/analytics.py:39-47 | fewer than 8 values is insufficient data with pct 0; otherwise increasing iff the last four average more than the first four; pct is the relative change in percent rounded to one decimal when the early average is positive, else 0 |
| Analytics.PositivePctMeansIncreasing | backend/app/routers/analytics.py:41-44 | a positive trend percentage only comes with an increasing trend |
| Analytics.GetTimeseries | backend/app/routers/analytics.py:18-62 | no weeks is an error; otherwise weeks, units and deviations are echoed entry by entry; data_points is the week count; avg demand and avg volatility are the means of the numeric entries rounded to two decimals; peak and min are the truncations of the largest and smallest numeric units; the trend follows the numeric units |
| ScenarioEngine.ScaleRow | backend/app/static/js/app.js:585-589 | every field but the two quantities is copied; the order is the least whole number ≥ qty·m; the forecast is whole and within half of f·m |
| ScenarioEngine.ApplyScenario | backend/app/static/js/app.js:583-589 | same length and order; row i is ScaleRow of original row i, so only its quantities change and orders are whole in [qty·m, qty·m + 1) |
| ScenarioEngine.BaseCaseIsIdentity | backend/app/static/js/app.js:585-589 | the multiplier 1 leaves rows with whole quantities unchanged |
| ScenarioEngine.BaseCaseKeepsPlanRows | backend/app/static/js/app.js:506-589 | the rows the plan endpoint sends are unchanged by the multiplier 1 |
| ScenarioEngine.OrderQtyMonotone | backend/app/static/js/app.js:588 | a larger multiplier never orders less of a non-negative quantity |
| ScenarioEngine.ClientMatchesSimulation | backend/app/static/js/app.js:588 | the browser's order is the server simulation's adjusted quantity rounded up |
| ScenarioEngine.ScenarioDescription | backend/app/static/js/app.js:536-541 | low iff < 0.8, base iff exactly 1.0, high iff > 1.2, alternative otherwise |
| ScenarioEngine.DescriptionBandsOrdered | backend/app/static/js/app.js:536-541 | a smaller multiplier is never described as higher demand: a low-band larger value forces a low-band smaller one, and a high-band smaller value a high-band larger one |
| ScenarioEngine.ScenarioSnapshot | backend/app/static/js/app.js:939-950 | the fallback iff the rows are missing or empty; otherwise base is the order total and the two outlooks are 70% and 130% of it rounded up |
| ScenarioEngine.OrderTotalIntegral | backend/app/static/js/app.js:948 | a total of whole quantities is whole |
| ScenarioEngine.SnapshotBracketsBase | backend/app/static/js/app.js:948-950 | with whole non-negative quantities, conservative ≤ base ≤ aggressive |
| ScenarioEngine.ScenarioSnapshotBrackets | backend/app/static/js/app.js:583-596 | after any non-negative multiplier the snapshot brackets its base |
| Debounce.Step | backend/app/static/js/app.js:528-572 | each event keeps the applied multipliers as a prefix and applies at most one more |
| Debounce.AppliedValuesWereChosen | backend/app/static/js/app.js:547-572 | every applied or pending multiplier was carried by some slider input or preset click |
| Debounce.AppliedAtMostFirings | backend/app/static/js/app.js:528-534 | applications never outnumber delays plus preset clicks |
| Debounce.BurstAppliesLast | backend/app/static/js/app.js:528-556 | a burst of slider inputs followed by one delay applies exactly the burst's last value |
| Debounce.PresetOverriddenByPendingSlide | backend/app/static/js/app.js:547-572 | a slider value still pending at a preset click is applied after the preset |
| Debounce.SettledAppliesLastChoice | backend/app/static/js/app.js:547-572 | with presets cancelling the pending value, the last applied value after a delay is the user's last choice |
| DashboardView.ProductLabel | backend/app/static/js/app.js:635-637 | the name when its text trimmed of JavaScript's white space is non-empty, else "Product <id>"; never blank |
| DashboardView.RiskLabel | backend/app/static/js/app.js:628 | `risk_level`, else `demand_risk`, else "Medium"; never empty |
| DashboardView.Reliability | backend/app/static/js/app.js:629-633 | Low → High, Medium → Medium, High → Low, anything else Medium |
| DashboardView.ReliabilityReversesLevels | backend/app/static/js/app.js:629-633 | on the three levels reliability is an involution that reverses priority |
| DashboardView.ForecastDivisor | backend/app/static/js/app.js:621 | the forecast when it is at least 1; otherwise, and for a missing forecast, 1 |
| DashboardView.SafetyBufferPct | backend/app/static/js/app.js:622-623 | a non-zero server percentage wins; otherwise a whole number within half of the excess of the order over the divisor, as a percentage |
| DashboardView.ComputedBufferPositiveIff | backend/app/static/js/app.js:622-626 | without a server percentage the buffer note appears iff the order is at least 100.5% of the divisor |
| DashboardView.SafetyNoteOf | backend/app/static/js/app.js:624-626 | the "+N% safety buffer" note iff the percentage is positive, else "Base forecast" |
| DashboardView.TableRowOf | backend/app/static/js/app.js:620-658 | a row shows its label, the forecast rounded half up, its order, note, risk, reliability, and an alert iff the risk is "High" |
| DashboardView.RenderTable | backend/app/static/js/app.js:600-664 | the fallback iff the rows are missing or empty; otherwise one table row per data row, in order |
| DashboardView.ScenarioKeepsTableIdentity | backend/app/static/js/app.js:583-596 | a scenario changes only quantities: labels, risk, reliability and alert stay, and a non-zero server percentage keeps its note |
| DashboardView.PlanRowRisk | backend/app/static/js/app.js:628-640 | a plan entry's risk label is the server's level name, and it raises an alert iff that level is High |
| DashboardView.SummaryBadge | backend/app/static/js/app.js:827-838 | HIGH iff high > 0, else MEDIUM iff medium > 0, else LOW |
| DashboardView.HighRiskPct | backend/app/static/js/app.js:830 | the half-up rounding of high / max(total, 1) as a percentage, for every input (3 of 0 items gives 300); within 0..100 when 0 ≤ high ≤ total |
| DashboardView.UpdateSummary | backend/app/static/js/app.js:815-853 | no banner without a summary; the badge follows the counts; the percentage appears only under HIGH; the order units are the total rounded half up; contexts fall back to "All Markets" and "All Categories" |
| DashboardView.PlanBanner | backend/app/static/js/app.js:827-838 | for a plan with data the badge is HIGH iff the server counted a high-risk row, and the quoted share is within 0..100 |
| DashboardView.OperationalRec | backend/app/static/js/app.js:1081-1115 | the fallback iff the summary or row list is missing (an empty list is present); otherwise high > 2, then high > 0, then medium > half the items, in that order |
| DashboardView.BadgeAndAdviceAgree | backend/app/static/js/app.js:827-838 | the badge is HIGH iff the advice is to review or to monitor; a LOW badge always comes with "ready to execute" |
| DashboardView.LoadPlan | backend/app/static/js/app.js:487-501 | a plan response draws the banner, table, snapshot and advice from its summary and rows |
| DashboardView.ScenarioView | backend/app/static/js/app.js:583-596 | a multiplier redraws the table and snapshot from the rescaled original rows and leaves the banner and advice as they were |
| DashboardView.ScenariosLeaveBanner | backend/app/static/js/app.js:583-596 | after any sequence of multipliers the banner and advice still show the loaded plan, and the table and snapshot show the last multiplier on the original rows |
| DashboardView.BannerIgnoresScenario | backend/app/static/js/app.js:583-596 | after a 1.3 scenario on one 10-unit row the snapshot totals 13 while the banner still quotes 10 |
| Numeric.RoundHalfUp | backend/app/static/js/app.js:587 | JavaScript `Math.round`: a whole number in (x − ½, x + ½] |
| Numeric.Ceil | backend/app/static/js/app.js:588 | `Math.ceil`: a whole number in [x, x + 1) |
| Numeric.RoundHalfEven | backend/app/services/inventory_service.py:37 | Python `round`: within ½ of x, and even on a tie |
| Numeric.Trunc | backend/app/routers/inventory_planning.py:290-291 | Python `int()`: towards zero, within 1 of x, and a whole x unchanged |
| Numeric.RoundTo | backend/app/services/inventory_service.py:40-41 | Python `round(x, d)`: r·10^d is the half-even rounding of x·10^d, so r is within half a unit of the d-th decimal |
| Numeric.RoundingModesDifferAtHalf | backend/app/static/js/app.js:587 | the browser and the server round a tie differently: 2.5 gives 3 and 2 |
| Numeric.RoundingFixesIntegers | backend/app/static/js/app.js:587-588 | every rounding mode leaves a whole number unchanged |
| Text.Strip | backend/app/routers/inventory_planning.py:93 | a slice of the text with only white space cut from either end, neither starting nor ending with white space; Python's white space includes the separators U+001C to U+001F, JavaScript's does not |
| Text.SeparatorsStripOnlyInPython | backend/app/routers/inventory_planning.py:93 | a separator before a visible character is stripped by Python and kept by JavaScript's trim |
| Text.StripEmptyIff | backend/app/static/js/app.js:635 | the trimmed text is non-empty iff the text has a non-space character |
| Text.Contains | backend/app/services/market_intelligence_service.py:157-161 | true iff the word occurs at some position |
| Sorting.SortBySorted | backend/app/services/market_intelligence_service.py:101 | the stable sort returns its input sorted by any strict weak order |
| RiskLevels.CountsPartition | backend/app/routers/inventory_planning.py:258-267 | the High, Medium and Low counts add up to the number of rows |

## Left out

- Reading the CSV files, the merge with the cleaned data, and HTTP routing. Rows arrive as sequences of records.
- The branch where the cleaned data file is missing. Those rows have no market or category column, so the router fails while filtering.
- `get_categories` is not part of this model.
- The quartiles of the safety-buffer ratio are parameters of `LoadRecommendations`, because pandas' quantile is not modelled. The Z score is a parameter of `Recommend`, because it comes from a configuration file.
- IEEE floating point. Quantities are exact reals, so float rounding artefacts are out, and so is NaN except where the model says so.
- NaN cells in the timeseries. The `valid_units` comprehension keeps a float NaN, which would make the averages NaN and `int()` of the peak raise; the model has no NaN entries.
- NaN cells in a market row. A missing column takes the service's default; a NaN strategy would fail in `lower()`.
- White space and case folding are ASCII only. JavaScript `trim` and Python `strip`/`lower` also handle Unicode white space and letters beyond U+007F.
- Number formatting in the HTML: `toFixed`, f-strings and the templates around the values.
- The DOM and Chart.js: drawing, the fallback cards, the clone-and-replace of listeners, the particle animation, and the fetch plumbing.
- Timers. The debounce delay is the `Quiet` event of an event trace.
- InventoryMetrics.CostTextOf: keeps the kind of sentence and the percentage it quotes, not the rendered text.
- MarketIntelligence.ExplanationTail: the contract names the closing advice of each level; the demand-pressure wording before it is fixed only by the definition.
- MarketIntelligence.ExplanationDistinguishesLevels: proved from the three sentence lengths. It does not say where the sentences differ.
- InventoryPlanning.TopRecommendations: rows equal on both sort keys keep their input order in the model. The contract states only that no row left out ranks ahead of a kept row, so it does not depend on how pandas breaks such ties.

## Findings

| source | as written | input that shows it | evidently intended | confidence | as-written member | corrected member |
|---|---|---|---|---|---|---|
| backend/app/static/js/app.js:547-572 | a preset click applies its multiplier but does not cancel the slider's pending debounced call | slider moved to 0.9, preset 1.3 clicked within 150 ms, then the delay passes: 1.3 is applied, then 0.9 replaces it while the slider shows 1.3 | the control the user touched last decides the scenario | medium, not executed | Debounce.PresetOverriddenByPendingSlide | Debounce.SettledAppliesLastChoice |

=== FILE: analytics.dfy ===
/** The overview metrics of the timeseries endpoint
    (backend/app/routers/analytics.py). The store/product selection and the
    ordering by week happen in pandas before this point; the model starts
    from the selected weeks. */
module Analytics {

  import opened Optional
  import opened Numeric

  /** One selected week: its label, units sold and 4-week rolling deviation.
      `None` stands for an entry the `valid_units` comprehension drops (one
      that is not an int or a float); every `Some` entry is a finite number,
      so a float NaN cell, which the comprehension keeps, is not represented. */
  datatype WeekPoint = WeekPoint(week: string, unitsSold: Option<real>, rollingStd: Option<real>)

  datatype TrendDirection = Increasing | Declining | InsufficientData

  datatype Metrics = Metrics(
    avgDemand: real,
    peakDemand: int,
    minDemand: int,
    avgVolatility: real,
    trendDirection: TrendDirection,
    trendPct: real,
    dataPoints: nat)

  datatype Timeseries = Timeseries(
    weeks: seq<string>,
    unitsSold: seq<Option<real>>,
    rollingStd: seq<Option<real>>,
    metrics: Metrics)

  /** The endpoint answers 404 when the selection holds no week. */
  datatype LookupError = NoDataFound

  /** The numeric entries, in order (the `valid_units` comprehension). */
  function Valid(xs: seq<Option<real>>): (r: seq<real>)
    ensures |r| <= |xs|
    ensures forall x :: x in r <==> Some(x) in xs
  {
    if |xs| == 0 then []
    else
      assert xs == [xs[0]] + xs[1..];
      (if xs[0].Some? then [xs[0].value] else []) + Valid(xs[1..])
  }

  /** Dropping the non-numeric entries commutes with concatenation, so the
      kept numbers stay in their order and with their repetitions. */
  lemma {:induction false} ValidAppend(xs: seq<Option<real>>, ys: seq<Option<real>>)
    ensures Valid(xs + ys) == Valid(xs) + Valid(ys)
  {
    if |xs| > 0 {
      assert (xs + ys)[0] == xs[0];
      assert (xs + ys)[1..] == xs[1..] + ys;
      ValidAppend(xs[1..], ys);
    } else {
      assert xs + ys == ys;
    }
  }

  /** Appending one entry appends its number, if it has one. */
  lemma ValidSnoc(xs: seq<Option<real>>, x: Option<real>)
    ensures Valid(xs + [x]) == Valid(xs) + (if x.Some? then [x.value] else [])
  {
    ValidAppend(xs, [x]);
    assert [x][1..] == [];
  }

  /** Python `sum`, adding from the left. */
  function Sum(xs: seq<real>): real {
    if |xs| == 0 then 0.0 else Sum(xs[..|xs| - 1]) + xs[|xs| - 1]
  }

  /** The mean, or zero for no values. */
  function MeanOrZero(xs: seq<real>): real {
    if |xs| == 0 then 0.0 else Sum(xs) / |xs| as real
  }

  /** A sum of values within [lo, hi] lies within [n * lo, n * hi]. */
  lemma {:induction false} SumBounds(xs: seq<real>, lo: real, hi: real)
    requires forall i :: 0 <= i < |xs| ==> lo <= xs[i] <= hi
    ensures |xs| as real * lo <= Sum(xs) <= |xs| as real * hi
  {
    if |xs| > 0 {
      var ys := xs[..|xs| - 1];
      assert forall i :: 0 <= i < |ys| ==> ys[i] == xs[i];
      SumBounds(ys, lo, hi);
    }
  }

  /** A mean of values within [lo, hi] lies within [lo, hi]. */
  lemma MeanBounds(xs: seq<real>, lo: real, hi: real)
    requires |xs| > 0
    requires forall i :: 0 <= i < |xs| ==> lo <= xs[i] <= hi
    ensures lo <= MeanOrZero(xs) <= hi
  {
    SumBounds(xs, lo, hi);
    var n := |xs| as real;
    DivideOut(n * lo, n, lo);
    DivideOut(n * hi, n, hi);
  }

  /** Average, peak and minimum of the valid units in one pass, as Python's
      `sum`, `max` and `min` compute them; all three are zero for no values. */
  method DemandStats(units: seq<real>) returns (avg: real, peak: real, low: real)
    ensures |units| == 0 ==> avg == 0.0 && peak == 0.0 && low == 0.0
    ensures avg == MeanOrZero(units)
    ensures |units| > 0 ==> peak in units && low in units
    ensures forall i :: 0 <= i < |units| ==> low <= units[i] <= peak
    ensures |units| > 0 ==> low <= avg <= peak
  {
    if |units| == 0 {
      return 0.0, 0.0, 0.0;
    }
    var total := 0.0;
    peak, low := units[0], units[0];
    var i := 0;
    while i < |units|
      invariant 0 <= i <= |units|
      invariant total == Sum(units[..i])
      invariant peak in units && low in units
      invariant forall j :: 0 <= j < i ==> low <= units[j] <= peak
      invariant low <= units[0] <= peak
    {
      assert units[..i + 1][..i] == units[..i];
      total := total + units[i];
      if units[i] > peak {
        peak := units[i];
      }
      if units[i] < low {
        low := units[i];
      }
      i := i + 1;
    }
    assert units[..i] == units;
    avg := total / |units| as real;
    MeanBounds(units, low, peak);
  }

  /** Direction and size of the change between the first and the last four
      weeks; at least eight valid weeks are needed. */
  datatype Trend = Trend(direction: TrendDirection, pct: real)

  /** Mean of the first four values. */
  function EarlyAvg(units: seq<real>): real
    requires |units| >= 4
  {
    Sum(units[..4]) / 4.0
  }

  /** Mean of the last four values. */
  function RecentAvg(units: seq<real>): real
    requires |units| >= 4
  {
    Sum(units[|units| - 4..]) / 4.0
  }

  /** The trend as the endpoint reports it: "increasing" only when the recent
      mean strictly exceeds the early one (a tie reads "declining"), and a
      percentage, rounded to one decimal, that is zero when the early mean is
      not positive. */
  function TrendOf(units: seq<real>): (t: Trend)
    ensures |units| < 8 <==> t.direction == InsufficientData
    ensures |units| < 8 ==> t.pct == 0.0
    ensures |units| >= 8 ==> (t.direction == Increasing <==> RecentAvg(units) > EarlyAvg(units))
    ensures |units| >= 8 && EarlyAvg(units) <= 0.0 ==> t.pct == 0.0
    ensures |units| >= 8 && EarlyAvg(units) > 0.0 ==>
      t.pct == RoundTo((RecentAvg(units) - EarlyAvg(units)) / EarlyAvg(units) * 100.0, 1)
  {
    if |units| >= 8 then
      var recent := RecentAvg(units);
      var early := EarlyAvg(units);
      var direction := if recent > early then Increasing else Declining;
      var pct := if early > 0.0 then RoundTo((recent - early) / early * 100.0, 1) else 0.0;
      Trend(direction, pct)
    else
      Trend(InsufficientData, 0.0)
  }

  /** A positive reported percentage only ever accompanies an increasing trend. */
  lemma {:induction false} PositivePctMeansIncreasing(units: seq<real>)
    requires TrendOf(units).pct > 0.0
    ensures TrendOf(units).direction == Increasing
  {
    var early := EarlyAvg(units);
    var recent := RecentAvg(units);
    var x := (recent - early) / early * 100.0;
    var n := RoundHalfEven(x * 10.0);
    assert RoundTo(x, 1) == n as real / 10.0;
    assert n >= 1;
    assert x * 10.0 >= 0.5;
    assert (recent - early) / early > 0.0;
  }

  /** The metrics block of the timeseries response. A selection without
      weeks is answered with an error; otherwise the three lists are echoed
      and the metrics computed over the numeric entries only. */
  method GetTimeseries(points: seq<WeekPoint>) returns (r: Result<Timeseries, LookupError>)
    ensures |points| == 0 <==> r.Err?
    ensures r.Ok? ==> |r.value.weeks| == |r.value.unitsSold| == |r.value.rollingStd| == |points|
    ensures r.Ok? ==> r.value.metrics.dataPoints == |points|
    ensures r.Ok? ==> forall i :: 0 <= i < |points| ==>
      && r.value.weeks[i] == points[i].week
      && r.value.unitsSold[i] == points[i].unitsSold
      && r.value.rollingStd[i] == points[i].rollingStd
    ensures r.Ok? ==> r.value.metrics.avgDemand == RoundTo(MeanOrZero(Valid(r.value.unitsSold)), 2)
    ensures r.Ok? ==> r.value.metrics.avgVolatility == RoundTo(MeanOrZero(Valid(r.value.rollingStd)), 2)
    ensures r.Ok? && |Valid(r.value.unitsSold)| > 0 ==>
      var valid := Valid(r.value.unitsSold);
      && (exists x :: x in valid && r.value.metrics.peakDemand == Trunc(x) && forall y :: y in valid ==> y <= x)
      && (exists x :: x in valid && r.value.metrics.minDemand == Trunc(x) && forall y :: y in valid ==> x <= y)
    ensures r.Ok? && |Valid(r.value.unitsSold)| == 0 ==>
      r.value.metrics.avgDemand == 0.0 && r.value.metrics.peakDemand == 0 && r.value.metrics.minDemand == 0
    ensures r.Ok? ==> r.value.metrics.minDemand <= r.value.metrics.peakDemand
    ensures r.Ok? ==> forall x :: Some(x) in r.value.unitsSold ==>
      r.value.metrics.minDemand as real - 1.0 < x && x < r.value.metrics.peakDemand as real + 1.0
    ensures r.Ok? ==> r.value.metrics.trendDirection == TrendOf(Valid(r.value.unitsSold)).direction
    ensures r.Ok? ==> r.value.metrics.trendPct == TrendOf(Valid(r.value.unitsSold)).pct
  {
    if |points| == 0 {
      return Err(NoDataFound);
    }
    var weeks := seq(|points|, i requires 0 <= i < |points| => points[i].week);
    var unitsSold := seq(|points|, i requires 0 <= i < |points| => points[i].unitsSold);
    var rollingStd := seq(|points|, i requires 0 <= i < |points| => points[i].rollingStd);
    var validUnits := Valid(unitsSold);
    var avg, peak, low := DemandStats(validUnits);
    var trend := TrendOf(validUnits);
    TruncMonotone(low, peak);
    var metrics := Metrics(
      RoundTo(avg, 2), Trunc(peak), Trunc(low), RoundTo(MeanOrZero(Valid(rollingStd)), 2),
      trend.direction, trend.pct, |weeks|);
    r := Ok(Timeseries(weeks, unitsSold, rollingStd, metrics));
  }
}

=== FILE: confidence_service.dfy ===
/** Confidence bounds around a single forecast
    (backend/app/services/confidence_service.py). */
module ConfidenceService {

  import opened Numeric

  datatype Band = Band(forecast: real, lowerBound: real, upperBound: real, marginOfError: real)

  /** The band reported for `forecast`: 1.96 rolling standard deviations on
      either side, or 15% of the forecast when the deviation is zero (Python
      treats a zero deviation as false). The lower bound is clipped at zero.
      The requested confidence level is accepted and ignored. */
  function ConfidenceBand(forecast: real, rollingStd: real, confidenceLevel: real): (b: Band)
    ensures b.forecast == forecast
    ensures rollingStd != 0.0 ==> b.marginOfError == 1.96 * rollingStd
    ensures rollingStd == 0.0 ==> b.marginOfError == 0.15 * forecast
    ensures b.upperBound - b.forecast == b.marginOfError
    ensures b.lowerBound >= 0.0
    ensures b.lowerBound == 0.0 || b.forecast - b.lowerBound == b.marginOfError
    ensures forecast >= 0.0 && rollingStd >= 0.0 ==> b.lowerBound <= b.forecast <= b.upperBound
  {
    var margin := if rollingStd != 0.0 then rollingStd * 1.96 else forecast * 0.15;
    Band(forecast, Max(0.0, forecast - margin), forecast + margin, margin)
  }

  /** The confidence level has no influence on the band. */
  lemma ConfidenceLevelIgnored(forecast: real, rollingStd: real, level1: real, level2: real)
    ensures ConfidenceBand(forecast, rollingStd, level1) == ConfidenceBand(forecast, rollingStd, level2)
  {
  }

  /** Unless clipped at zero, the band is symmetric around the forecast. */
  lemma BandSymmetricUnlessClipped(forecast: real, rollingStd: real, level: real)
    requires forecast - ConfidenceBand(forecast, rollingStd, level).marginOfError >= 0.0
    ensures var b := ConfidenceBand(forecast, rollingStd, level);
      b.forecast - b.lowerBound == b.upperBound - b.forecast
  {
  }
}

=== FILE: dashboard_view.dfy ===
/** The derived values the dashboard shows (backend/app/static/js/app.js):
    the per-row product label, safety-buffer note, risk label and
    reliability in `renderTable` (and the same label in the chart), the
    summary banner of `updateSummary`, and the advice of
    `renderOperationalRec`. The HTML around them is not modelled. */
module DashboardView {

  import opened Optional
  import opened Numeric
  import opened Text
  import opened RiskLevels
  import opened ScenarioEngine
  import InventoryPlanning

  /** The product label used by the table, the chart and the label update:
      the name when its trimmed text is non-empty, else "Product <id>".
      The name itself is shown untrimmed. */
  function ProductLabel(row: ClientRow): (text: string)
    ensures row.productName.Some? && HasVisible(JavaScript, row.productName.value) ==> text == row.productName.value
    ensures row.productName.None? || !HasVisible(JavaScript, row.productName.value) ==> text == "Product " + row.productId
    ensures HasVisible(JavaScript, text)
  {
    StripEmptyIff(JavaScript, row.productName.GetOr(""));
    if row.productName.Some? && |Strip(JavaScript, row.productName.value)| > 0 then row.productName.value
    else
      var fallback := "Product " + row.productId;
      assert !IsSpace(JavaScript, fallback[0]);
      fallback
  }

  /** `a || b || fallback` over optional labels: the first non-empty one. */
  function FirstLabel(a: Option<string>, b: Option<string>, fallback: string): (text: string)
    ensures a.Some? && a.value != "" ==> text == a.value
    ensures (a.None? || a.value == "") && b.Some? && b.value != "" ==> text == b.value
    ensures (a.None? || a.value == "") && (b.None? || b.value == "") ==> text == fallback
  {
    if a.Some? && a.value != "" then a.value
    else if b.Some? && b.value != "" then b.value
    else fallback
  }

  /** The risk label of a row: `risk_level`, else `demand_risk`, else "Medium". */
  function RiskLabel(row: ClientRow): (text: string)
    ensures text != ""
    ensures text == FirstLabel(row.riskLevel, row.demandRisk, "Medium")
  {
    FirstLabel(row.riskLevel, row.demandRisk, "Medium")
  }

  /** How reliable the recommendation is said to be: the opposite of the
      risk for the three known labels, "Medium" for anything else. */
  function Reliability(riskLabel: string): (text: string)
    ensures riskLabel == "Low" ==> text == "High"
    ensures riskLabel == "Medium" ==> text == "Medium"
    ensures riskLabel == "High" ==> text == "Low"
    ensures riskLabel != "Low" && riskLabel != "Medium" && riskLabel != "High" ==> text == "Medium"
  {
    if riskLabel == "Low" then "High"
    else if riskLabel == "High" then "Low"
    else "Medium"
  }

  /** On the three level names reliability is an order-reversing involution. */
  lemma ReliabilityReversesLevels(k: Risk)
    ensures Reliability(Reliability(k.Name())) == k.Name()
    ensures var r := Parse(Reliability(k.Name()));
      r.Some? && r.value.Priority() == 2 - k.Priority()
  {
    NameAndPriorityInjective(k, k);
  }

  /** `Math.max(Number(f) || 0, 1)`: a missing or non-numeric forecast
      counts as 0, and the divisor is at least 1. */
  function ForecastDivisor(forecast: Option<real>): (d: real)
    ensures d >= 1.0
    ensures forecast.Some? && forecast.value >= 1.0 ==> d == forecast.value
    ensures forecast.None? || forecast.value < 1.0 ==> d == 1.0
  {
    Max(forecast.GetOr(0.0), 1.0)
  }

  /** The safety buffer shown for a row: the server's percentage when it is
      non-zero, otherwise the order's excess over the forecast divisor as a
      whole percentage. */
  function SafetyBufferPct(row: ClientRow): (pct: real)
    ensures row.safetyBufferPct.Some? && row.safetyBufferPct.value != 0.0 ==> pct == row.safetyBufferPct.value
    ensures row.safetyBufferPct.None? || row.safetyBufferPct.value == 0.0 ==>
      var d := ForecastDivisor(row.forecastUnits);
      var exact := (row.recommendedOrderQty - d) / d * 100.0;
      IsIntegral(pct) && exact - 0.5 < pct <= exact + 0.5
  {
    if row.safetyBufferPct.Some? && row.safetyBufferPct.value != 0.0 then row.safetyBufferPct.value
    else
      var d := ForecastDivisor(row.forecastUnits);
      RoundHalfUp((row.recommendedOrderQty - d) / d * 100.0) as real
  }

  /** Without a server percentage, the note shows a buffer exactly when the
      order exceeds the forecast divisor by at least half a percent. */
  lemma ComputedBufferPositiveIff(row: ClientRow)
    requires row.safetyBufferPct.None? || row.safetyBufferPct.value == 0.0
    ensures var d := ForecastDivisor(row.forecastUnits);
      SafetyBufferPct(row) > 0.0 <==> row.recommendedOrderQty * 200.0 >= d * 201.0
  {
    var d := ForecastDivisor(row.forecastUnits);
    var q := row.recommendedOrderQty;
    var exact := (q - d) / d * 100.0;
    assert exact * d == (q - d) * 100.0;
    var n := RoundHalfUp(exact);
    assert n as real <= exact + 0.5 && exact - 0.5 < n as real;
    ScaleByPositive(0.5, exact, d);
    if exact >= 0.5 {
      assert n >= 1;
      assert exact * d >= 0.5 * d;
    } else {
      assert n <= 0;
      assert exact * d < 0.5 * d;
    }
  }

  /** The order-quantity note under a row. */
  datatype SafetyNote = BufferNote(pct: real) | BaseForecast

  function SafetyNoteOf(row: ClientRow): (note: SafetyNote)
    ensures note.BufferNote? <==> SafetyBufferPct(row) > 0.0
    ensures note.BufferNote? ==> note.pct == SafetyBufferPct(row)
  {
    var pct := SafetyBufferPct(row);
    if pct > 0.0 then BufferNote(pct) else BaseForecast
  }

  /** What one table row shows. `forecastShown` is absent when the forecast
      is not a number. */
  datatype TableRow = TableRow(
    productLabel: string,
    forecastShown: Option<int>,
    orderQty: real,
    note: SafetyNote,
    riskLabel: string,
    reliability: string,
    alert: bool)

  function TableRowOf(row: ClientRow): (shown: TableRow)
    ensures shown.productLabel == ProductLabel(row)
    ensures shown.forecastShown.Some? <==> row.forecastUnits.Some?
    ensures row.forecastUnits.Some? ==>
      row.forecastUnits.value - 0.5 < shown.forecastShown.value as real <= row.forecastUnits.value + 0.5
    ensures shown.orderQty == row.recommendedOrderQty
    ensures shown.note == SafetyNoteOf(row)
    ensures shown.riskLabel == RiskLabel(row) && shown.reliability == Reliability(shown.riskLabel)
    ensures shown.alert <==> shown.riskLabel == "High"
  {
    var risk := RiskLabel(row);
    var forecast := match row.forecastUnits
      case Some(f) => Some(RoundHalfUp(f))
      case None => None;
    TableRow(ProductLabel(row), forecast, row.recommendedOrderQty, SafetyNoteOf(row),
      risk, Reliability(risk), risk == "High")
  }

  /** The table for the given rows; none (the fallback card) when they are
      missing or empty. */
  function RenderTable(data: Option<seq<ClientRow>>): (table: Option<seq<TableRow>>)
    ensures table.None? <==> data.None? || |data.value| == 0
    ensures table.Some? ==> |table.value| == |data.value|
    ensures table.Some? ==> forall i :: 0 <= i < |data.value| ==> table.value[i] == TableRowOf(data.value[i])
  {
    if data.None? || |data.value| == 0 then None
    else Some(seq(|data.value|, i requires 0 <= i < |data.value| => TableRowOf(data.value[i])))
  }

  /** A scenario changes only the quantities of the table: each row keeps
      its label, risk, reliability and alert, and a row with a non-zero
      server percentage keeps its safety note. */
  lemma ScenarioKeepsTableIdentity(original: seq<ClientRow>, multiplier: real)
    requires |original| > 0
    ensures var before := RenderTable(Some(original)).value;
      var after := RenderTable(Some(ApplyScenario(original, multiplier))).value;
      |after| == |before| &&
      forall i :: 0 <= i < |before| ==>
        && after[i].productLabel == before[i].productLabel
        && after[i].riskLabel == before[i].riskLabel
        && after[i].reliability == before[i].reliability
        && after[i].alert == before[i].alert
        && (original[i].safetyBufferPct.Some? && original[i].safetyBufferPct.value != 0.0 ==>
              after[i].note == before[i].note)
  {
  }

  /** Every label and alert of a plan entry follows the server's level. */
  lemma PlanRowRisk(item: InventoryPlanning.PlanItem)
    ensures RiskLabel(FromPlanItem(item)) == item.riskLevel.Name()
    ensures TableRowOf(FromPlanItem(item)).alert <==> item.riskLevel == High
  {
    NameAndPriorityInjective(item.riskLevel, High);
  }

  /** The summary as the browser receives it; `None` is an absent or falsy field. */
  datatype ClientSummary = ClientSummary(
    totalOrderQty: Option<real>,
    totalItems: Option<real>,
    highRiskCount: Option<real>,
    mediumRiskCount: Option<real>,
    marketContext: Option<string>,
    categoryContext: Option<string>)

  function FromPlanSummary(s: InventoryPlanning.PlanSummary): ClientSummary {
    ClientSummary(Some(s.totalOrderQty), Some(s.totalItems as real), Some(s.highRiskCount as real),
      Some(s.mediumRiskCount as real), Some(s.marketContext), Some(s.categoryContext))
  }

  /** `x || 0`. */
  function OrZero(x: Option<real>): real {
    x.GetOr(0.0)
  }

  datatype Badge = HighRiskBadge | MediumRiskBadge | LowRiskBadge

  /** HIGH when any item is high risk, else MEDIUM when any is medium, else LOW. */
  function SummaryBadge(high: real, medium: real): (b: Badge)
    ensures b == HighRiskBadge <==> high > 0.0
    ensures b == MediumRiskBadge <==> high <= 0.0 && medium > 0.0
    ensures b == LowRiskBadge <==> high <= 0.0 && medium <= 0.0
  {
    if high > 0.0 then HighRiskBadge
    else if medium > 0.0 then MediumRiskBadge
    else LowRiskBadge
  }

  /** The share of high-risk items as a whole percentage; the divisor is at
      least 1. */
  function HighRiskPct(high: real, total: real): (pct: int)
    ensures 0.0 <= high <= total ==> 0 <= pct <= 100
    ensures total >= 1.0 ==>
      var exact := high / total * 100.0;
      exact - 0.5 < pct as real <= exact + 0.5
    ensures var exact := high / Max(total, 1.0) * 100.0;
      exact - 0.5 < pct as real <= exact + 0.5
  {
    var d := Max(total, 1.0);
    var exact := high / d * 100.0;
    assert 0.0 <= high <= total ==> 0.0 <= high / d <= 1.0 by {
      assert (high / d) * d == high;
      if 0.0 <= high <= total {
        DivideAtMostOne(high, d);
      }
    }
    RoundHalfUp(exact)
  }

  lemma DivideAtMostOne(a: real, d: real)
    requires 0.0 < d && a <= d
    ensures a / d <= 1.0
  {
    assert (a / d) * d == a;
  }

  datatype SummaryBanner = SummaryBanner(
    badge: Badge,
    riskPct: Option<int>,
    orderUnits: int,
    marketContext: string,
    categoryContext: string)

  /** The summary banner; none when there is no summary. The percentage is
      quoted only under a HIGH badge. */
  function UpdateSummary(summary: Option<ClientSummary>): (banner: Option<SummaryBanner>)
    ensures banner.None? <==> summary.None?
    ensures banner.Some? ==>
      && banner.value.badge == SummaryBadge(OrZero(summary.value.highRiskCount), OrZero(summary.value.mediumRiskCount))
      && (banner.value.riskPct.Some? <==> banner.value.badge == HighRiskBadge)
      && (banner.value.riskPct.Some? ==>
            banner.value.riskPct.value == HighRiskPct(OrZero(summary.value.highRiskCount), OrZero(summary.value.totalItems)))
      && banner.value.marketContext == FirstLabel(summary.value.marketContext, None, "All Markets")
      && banner.value.categoryContext == FirstLabel(summary.value.categoryContext, None, "All Categories")
    ensures banner.Some? ==>
      var total := OrZero(summary.value.totalOrderQty);
      total - 0.5 < banner.value.orderUnits as real <= total + 0.5
  {
    match summary
    case None => None
    case Some(s) =>
      var high, medium := OrZero(s.highRiskCount), OrZero(s.mediumRiskCount);
      var badge := SummaryBadge(high, medium);
      Some(SummaryBanner(
        badge,
        if badge == HighRiskBadge then Some(HighRiskPct(high, OrZero(s.totalItems))) else None,
        RoundHalfUp(OrZero(s.totalOrderQty)),
        FirstLabel(s.marketContext, None, "All Markets"),
        FirstLabel(s.categoryContext, None, "All Categories")))
  }

  /** For a plan with matching rows, the banner's badge follows the server's
      high and medium counts, and the quoted share is a percentage. */
  lemma PlanBanner(loaded: seq<InventoryPlanning.LoadedRow>, market: Option<string>,
                   category: Option<string>, limit: int)
    requires 1 <= limit <= 100 && |loaded| > 0
    ensures var plan := InventoryPlanning.GetInventoryPlan(loaded, market, category, limit);
      var s := plan.value.summary.value;
      var banner := UpdateSummary(Some(FromPlanSummary(s))).value;
      && (banner.badge == HighRiskBadge <==> s.highRiskCount > 0)
      && (banner.badge == MediumRiskBadge <==> s.highRiskCount == 0 && s.mediumRiskCount > 0)
      && (banner.riskPct.Some? ==> 0 <= banner.riskPct.value <= 100)
  {
  }

  /** The recommended course of action. */
  datatype Advice = ReviewBeforeOrder | ProceedAndMonitor | SafeToProceed | ReadyToExecute

  /** The operational recommendation; none (the fallback card) when the
      summary or the row list is missing. An empty row list is present. */
  function OperationalRec(summary: Option<ClientSummary>, data: Option<seq<ClientRow>>): (advice: Option<Advice>)
    ensures advice.None? <==> summary.None? || data.None?
    ensures advice.Some? ==>
      var high, medium, total := OrZero(summary.value.highRiskCount),
        OrZero(summary.value.mediumRiskCount), OrZero(summary.value.totalItems);
      && (advice.value == ReviewBeforeOrder <==> high > 2.0)
      && (advice.value == ProceedAndMonitor <==> 0.0 < high <= 2.0)
      && (advice.value == SafeToProceed <==> high <= 0.0 && medium > total * 0.5)
      && (advice.value == ReadyToExecute <==> high <= 0.0 && medium <= total * 0.5)
  {
    if summary.None? || data.None? then None
    else
      var s := summary.value;
      var high, medium, total := OrZero(s.highRiskCount), OrZero(s.mediumRiskCount), OrZero(s.totalItems);
      if high > 2.0 then Some(ReviewBeforeOrder)
      else if high > 0.0 then Some(ProceedAndMonitor)
      else if medium > total * 0.5 then Some(SafeToProceed)
      else Some(ReadyToExecute)
  }

  /** The banner and the advice agree: the badge is HIGH exactly when the
      advice asks for a review or close monitoring, and a LOW badge always
      comes with "ready to execute". */
  lemma BadgeAndAdviceAgree(summary: ClientSummary, data: seq<ClientRow>)
    ensures var badge := UpdateSummary(Some(summary)).value.badge;
      var advice := OperationalRec(Some(summary), Some(data)).value;
      && (badge == HighRiskBadge <==> advice == ReviewBeforeOrder || advice == ProceedAndMonitor)
      && (badge == LowRiskBadge && OrZero(summary.totalItems) >= 0.0 ==> advice == ReadyToExecute)
  {
  }

  /** The parts of the page drawn from a plan response: the summary banner,
      the table, the snapshot card and the operational advice. */
  datatype Dashboard = Dashboard(
    banner: Option<SummaryBanner>,
    table: Option<seq<TableRow>>,
    snapshot: Option<Snapshot>,
    advice: Option<Advice>)

  /** A plan response arriving: every part is drawn from it. */
  function LoadPlan(summary: Option<ClientSummary>, rows: seq<ClientRow>): (d: Dashboard)
    ensures d.banner.None? <==> summary.None?
    ensures d.table.None? <==> |rows| == 0
    ensures d.snapshot.None? <==> |rows| == 0
    ensures d.advice.None? <==> summary.None?
    ensures d.banner == UpdateSummary(summary) && d.advice == OperationalRec(summary, Some(rows))
    ensures d.table == RenderTable(Some(rows)) && d.snapshot == ScenarioSnapshot(Some(rows))
  {
    Dashboard(UpdateSummary(summary), RenderTable(Some(rows)), ScenarioSnapshot(Some(rows)),
      OperationalRec(summary, Some(rows)))
  }

  /** A multiplier applied to the plan's original rows: the table and the
      snapshot are redrawn from the rescaled rows; the banner and the advice
      are left as they were. */
  function ScenarioView(d: Dashboard, original: seq<ClientRow>, multiplier: real): (next: Dashboard)
    ensures next.banner == d.banner && next.advice == d.advice
    ensures next.table == RenderTable(Some(ApplyScenario(original, multiplier)))
    ensures next.snapshot == ScenarioSnapshot(Some(ApplyScenario(original, multiplier)))
  {
    var updated := ApplyScenario(original, multiplier);
    d.(table := RenderTable(Some(updated)), snapshot := ScenarioSnapshot(Some(updated)))
  }

  /** The page after loading a plan and applying the multipliers in order. */
  function AfterScenarios(summary: Option<ClientSummary>, rows: seq<ClientRow>, multipliers: seq<real>): Dashboard
  {
    if |multipliers| == 0 then LoadPlan(summary, rows)
    else ScenarioView(AfterScenarios(summary, rows, multipliers[..|multipliers| - 1]), rows,
      multipliers[|multipliers| - 1])
  }

  /** However many scenarios are applied, the banner and the advice still
      show the loaded plan, while the table and the snapshot show the last
      multiplier applied to the original rows (multipliers never compound). */
  lemma {:induction false} ScenariosLeaveBanner(summary: Option<ClientSummary>, rows: seq<ClientRow>,
                                                multipliers: seq<real>)
    ensures var d := AfterScenarios(summary, rows, multipliers);
      && d.banner == UpdateSummary(summary)
      && d.advice == OperationalRec(summary, Some(rows))
      && (|multipliers| > 0 ==>
            var last := multipliers[|multipliers| - 1];
            && d.table == RenderTable(Some(ApplyScenario(rows, last)))
            && d.snapshot == ScenarioSnapshot(Some(ApplyScenario(rows, last))))
  {
    if |multipliers| > 0 {
      ScenariosLeaveBanner(summary, rows, multipliers[..|multipliers| - 1]);
    }
  }

  /** The banner and the snapshot can disagree: after a 1.3 multiplier on a
      single 10-unit row the snapshot totals 13 units while the banner still
      quotes the plan's 10. */
  lemma BannerIgnoresScenario()
    ensures var row := ClientRow("P0007", None, "Electronics", "APAC", Some(10.0), 10.0, Some(0.0), Some("High"), None);
      var summary := ClientSummary(Some(10.0), Some(1.0), Some(1.0), Some(0.0), None, None);
      var d := AfterScenarios(Some(summary), [row], [1.3]);
      && d.banner.Some? && d.snapshot.Some?
      && d.banner.value.orderUnits == 10
      && d.snapshot.value.base == 13.0
  {
    var row := ClientRow("P0007", None, "Electronics", "APAC", Some(10.0), 10.0, Some(0.0), Some("High"), None);
    var summary := ClientSummary(Some(10.0), Some(1.0), Some(1.0), Some(0.0), None, None);
    assert [1.3][..0] == [];
    ScenariosLeaveBanner(Some(summary), [row], [1.3]);
    assert UpdateSummary(Some(summary)).value.orderUnits == 10;
    var updated := ApplyScenario([row], 1.3);
    assert updated[0].recommendedOrderQty == 13.0;
    assert OrderTotal(updated) == 13.0 + OrderTotal(updated[1..]);
    assert updated[1..] == [];
  }
}

=== FILE: debounce.dfy ===
/** The scenario slider's debounce (`debounce` and the handlers around it in
    backend/app/static/js/app.js) as a single pending slot driven by an
    event trace instead of timers. A slider input replaces the pending
    value; when the delay passes without input the pending value is
    applied; a preset button applies its value at once. */
module Debounce {

  import opened Optional

  /** Inputs to the scenario controls in arrival order. `Quiet` is the
      debounce delay elapsing with no slider input in between. */
  datatype Event = SliderInput(value: real) | Quiet | PresetClick(value: real)

  /** The pending slot and the multipliers applied so far, oldest first. */
  datatype Controls = Controls(pending: Option<real>, applied: seq<real>)

  /** The handlers as written: a preset click applies its value but leaves
      a pending slider value in place, to be applied when the delay ends. */
  function Step(c: Controls, e: Event): (next: Controls)
    ensures c.applied <= next.applied && |next.applied| <= |c.applied| + 1
  {
    match e
    case SliderInput(v) => c.(pending := Some(v))
    case PresetClick(v) => c.(applied := c.applied + [v])
    case Quiet => Settle(c)
  }

  /** The delay ending: the pending value, if any, is applied. */
  function Settle(c: Controls): (next: Controls)
    ensures next.pending.None?
    ensures c.pending.None? ==> next == c
    ensures c.pending.Some? ==> next.applied == c.applied + [c.pending.value]
  {
    match c.pending
    case None => c
    case Some(v) => Controls(None, c.applied + [v])
  }

  /** The controls after a trace, starting idle. */
  function Run(events: seq<Event>): Controls {
    if |events| == 0 then Controls(None, [])
    else Step(Run(events[..|events| - 1]), events[|events| - 1])
  }

  /** Whether `v` is the value some slider input or preset click carried. */
  predicate Carried(events: seq<Event>, v: real) {
    exists i :: 0 <= i < |events| && !events[i].Quiet? && events[i].value == v
  }

  /** The debounced handler and the presets only ever apply values the
      user chose. */
  lemma {:induction false} AppliedValuesWereChosen(events: seq<Event>)
    ensures Run(events).pending.Some? ==> Carried(events, Run(events).pending.value)
    ensures forall v :: v in Run(events).applied ==> Carried(events, v)
  {
    if |events| > 0 {
      var pre, e := events[..|events| - 1], events[|events| - 1];
      AppliedValuesWereChosen(pre);
      forall v | Carried(pre, v)
        ensures Carried(events, v)
      {
        var i :| 0 <= i < |pre| && !pre[i].Quiet? && pre[i].value == v;
        assert events[i] == pre[i];
      }
      if !e.Quiet? {
        assert events[|events| - 1] == e;
      }
    }
  }

  /** The number of events that can apply a value: delays and clicks. */
  function Firings(events: seq<Event>): (n: nat)
    ensures n <= |events|
  {
    if |events| == 0 then 0
    else Firings(events[..|events| - 1]) + (if events[|events| - 1].SliderInput? then 0 else 1)
  }

  /** However fast the slider moves, each delay applies at most one value. */
  lemma {:induction false} AppliedAtMostFirings(events: seq<Event>)
    ensures |Run(events).applied| <= Firings(events)
  {
    if |events| > 0 {
      AppliedAtMostFirings(events[..|events| - 1]);
    }
  }

  function Slides(values: seq<real>): (events: seq<Event>)
    ensures |events| == |values|
    ensures forall i :: 0 <= i < |values| ==> events[i] == SliderInput(values[i])
  {
    seq(|values|, i requires 0 <= i < |values| => SliderInput(values[i]))
  }

  /** A burst of slider inputs followed by one delay applies only the last
      value of the burst. */
  lemma {:induction false} BurstAppliesLast(before: seq<Event>, values: seq<real>)
    requires |values| > 0
    ensures var after := Run(before + Slides(values) + [Quiet]);
      after.pending.None? && after.applied == Run(before).applied + [values[|values| - 1]]
  {
    BurstLeavesLastPending(before, values);
    var trace := before + Slides(values) + [Quiet];
    assert trace[..|trace| - 1] == before + Slides(values);
  }

  lemma {:induction false} BurstLeavesLastPending(before: seq<Event>, values: seq<real>)
    requires |values| > 0
    ensures Run(before + Slides(values)) == Controls(Some(values[|values| - 1]), Run(before).applied)
  {
    var trace := before + Slides(values);
    var n := |values|;
    if n == 1 {
      assert trace[..|trace| - 1] == before;
    } else {
      BurstLeavesLastPending(before, values[..n - 1]);
      assert trace[..|trace| - 1] == before + Slides(values[..n - 1]);
    }
  }

  /** The value of the user's most recent slider input or preset click. */
  function LastChoice(events: seq<Event>): Option<real> {
    if |events| == 0 then None
    else
      var e := events[|events| - 1];
      if e.Quiet? then LastChoice(events[..|events| - 1]) else Some(e.value)
  }

  /** As written, a slider value still pending when a preset is clicked is
      applied after the preset, so the settled view shows the older slider
      value instead of the preset the user chose last. */
  lemma PresetOverriddenByPendingSlide()
    ensures var trace := [SliderInput(0.9), PresetClick(1.3), Quiet];
      && LastChoice(trace) == Some(1.3)
      && Run(trace).pending.None?
      && Run(trace).applied == [1.3, 0.9]
  {
    var trace := [SliderInput(0.9), PresetClick(1.3), Quiet];
    assert trace[..2] == [SliderInput(0.9), PresetClick(1.3)];
    assert trace[..2][..1] == [SliderInput(0.9)];
    assert trace[..2][..1][..0] == [];
    assert Run(trace[..2][..1]) == Controls(Some(0.9), []);
    assert Run(trace[..2]) == Controls(Some(0.9), [1.3]);
    assert Run(trace) == Controls(None, [1.3] + [0.9]);
  }

  /** The handlers with a preset click also cancelling the pending slider
      value. */
  function SettledStep(c: Controls, e: Event): (next: Controls)
    ensures e.PresetClick? ==> next == Controls(None, c.applied + [e.value])
    ensures !e.PresetClick? ==> next == Step(c, e)
  {
    match e
    case PresetClick(v) => Controls(None, c.applied + [v])
    case _ => Step(c, e)
  }

  function RunSettled(events: seq<Event>): Controls {
    if |events| == 0 then Controls(None, [])
    else SettledStep(RunSettled(events[..|events| - 1]), events[|events| - 1])
  }

  /** With cancelling presets the controls always reflect the last choice:
      it is either pending or the most recently applied value. */
  lemma {:induction false} SettledTracksLastChoice(events: seq<Event>)
    ensures var c := RunSettled(events);
      match LastChoice(events)
      case None => c.pending.None? && c.applied == []
      case Some(v) =>
        (c.pending == Some(v) || (c.pending.None? && |c.applied| > 0 && c.applied[|c.applied| - 1] == v))
  {
    if |events| > 0 {
      SettledTracksLastChoice(events[..|events| - 1]);
    }
  }

  /** Once the delay has passed, the last value applied is the user's last
      choice. */
  lemma {:induction false} SettledAppliesLastChoice(events: seq<Event>)
    requires |events| > 0 && events[|events| - 1] == Quiet && LastChoice(events).Some?
    ensures var applied := RunSettled(events).applied;
      |applied| > 0 && applied[|applied| - 1] == LastChoice(events).value
  {
    SettledTracksLastChoice(events);
  }
}

=== FILE: inventory_metrics.dfy ===
/** The Business Impact and Inaction Risk figures of GET /inventory/metrics
    (backend/app/routers/inventory_planning.py): step functions of the
    aggregate safety buffer and of the share of high-cost rows, over the
    same filtered rows as the plan. */
module InventoryMetrics {

  import opened Optional
  import opened Numeric
  import opened RiskLevels
  import opened InventoryPlanning

  /** Arrow shown next to the cost figure. */
  datatype CostDirection = Rising | Level | Falling {
    function Symbol(): string {
      match this
      case Rising => "\U{2191}"
      case Level => "\U{2192}"
      case Falling => "\U{2193}"
    }
  }

  /** The cost sentence, by kind and the whole percentage it quotes. */
  datatype CostText = AggressiveSafety(highPct: int) | BalancedApproach(highPct: int)
                    | LeanStrategy(lowPct: int) | NoCostData

  datatype BusinessImpact = BusinessImpact(
    stockoutRiskAvoided: int,
    safetyBufferPct: int,
    safetyBufferUnits: int,
    expectedServiceLevel: int,
    costDirection: CostDirection,
    costText: CostText)

  datatype InactionRisk = InactionRisk(
    stockoutRiskIncrease: int,
    potentialLostUnits: int,
    serviceLevelDrop: int,
    recommendation: string)

  datatype RiskCounts = RiskCounts(high: nat, medium: nat, low: nat)

  /** `counts` is absent from the empty response. */
  datatype MetricsContext = MetricsContext(
    market: string,
    category: string,
    itemsAnalyzed: nat,
    counts: Option<RiskCounts>)

  datatype MetricsResponse = MetricsResponse(
    businessImpact: BusinessImpact,
    inactionRisk: InactionRisk,
    context: MetricsContext)

  /** Aggregate safety stock as a whole percentage of the total forecast;
      zero when the total forecast is not positive. */
  function BufferPct(totalForecast: real, totalOrder: real): (pct: real)
    ensures IsIntegral(pct)
    ensures totalForecast <= 0.0 ==> pct == 0.0
    ensures totalForecast > 0.0 ==>
      var exact := (totalOrder - totalForecast) / totalForecast * 100.0;
      && exact - 0.5 <= pct <= exact + 0.5
      && pct == RoundHalfEven(exact) as real
  {
    if totalForecast > 0.0 then RoundHalfEven((totalOrder - totalForecast) / totalForecast * 100.0) as real
    else 0.0
  }

  /** Stockout risk avoided: 95 above a 150% buffer, 85 above 100%, 75
      above 50%, 60 otherwise (all thresholds strict). */
  function StockoutRiskAvoided(bufferPct: real): (r: int)
    ensures r == 95 <==> bufferPct > 150.0
    ensures r == 85 <==> 100.0 < bufferPct <= 150.0
    ensures r == 75 <==> 50.0 < bufferPct <= 100.0
    ensures r == 60 <==> bufferPct <= 50.0
  {
    if bufferPct > 150.0 then 95
    else if bufferPct > 100.0 then 85
    else if bufferPct > 50.0 then 75
    else 60
  }

  /** A larger buffer never reports less stockout protection. */
  lemma StockoutRiskMonotone(a: real, b: real)
    requires a <= b
    ensures StockoutRiskAvoided(a) <= StockoutRiskAvoided(b)
  {
  }

  /** 50 plus half the buffer (truncated), capped at 99. */
  function ExpectedServiceLevel(bufferPct: real): (r: int)
    ensures r <= 99
    ensures r == 99 || r == 50 + Trunc(bufferPct / 2.0)
    ensures r < 99 ==> r == 50 + Trunc(bufferPct / 2.0)
    ensures r == 99 <==> 50 + Trunc(bufferPct / 2.0) >= 99
  {
    var level := 50 + Trunc(bufferPct / 2.0);
    if level < 99 then level else 99
  }

  /** The service level grows with the buffer and reaches the cap at 98%. */
  lemma ServiceLevelMonotone(a: real, b: real)
    requires a <= b
    ensures ExpectedServiceLevel(a) <= ExpectedServiceLevel(b)
    ensures b >= 98.0 ==> ExpectedServiceLevel(b) == 99
  {
    TruncMonotone(a / 2.0, b / 2.0);
  }

  /** Rising above 50% high-cost rows, level above 25%, falling otherwise. */
  function CostDirectionOf(highPct: real): (d: CostDirection)
    ensures d == Rising <==> highPct > 50.0
    ensures d == Level <==> 25.0 < highPct <= 50.0
    ensures d == Falling <==> highPct <= 25.0
  {
    if highPct > 50.0 then Rising
    else if highPct > 25.0 then Level
    else Falling
  }

  /** The sentence matching the direction: the high-cost share when the
      direction is rising or level, the optimised share when falling. */
  function CostTextOf(highPct: real, lowPct: real): (t: CostText)
    ensures CostDirectionOf(highPct) == Rising <==> t.AggressiveSafety?
    ensures CostDirectionOf(highPct) == Level <==> t.BalancedApproach?
    ensures CostDirectionOf(highPct) == Falling <==> t.LeanStrategy?
    ensures t.AggressiveSafety? ==> t.highPct == Trunc(highPct)
    ensures t.BalancedApproach? ==> t.highPct == Trunc(highPct)
    ensures t.LeanStrategy? ==> t.lowPct == Trunc(lowPct)
  {
    if highPct > 50.0 then AggressiveSafety(Trunc(highPct))
    else if highPct > 25.0 then BalancedApproach(Trunc(highPct))
    else LeanStrategy(Trunc(lowPct))
  }

  /** The share of `count` in `total`, as a percentage; zero for no rows. */
  function SharePct(count: nat, total: nat): (pct: real)
    ensures total == 0 ==> pct == 0.0
    ensures total > 0 ==> pct * (total as real) == (count as real) * 100.0
  {
    if total > 0 then (count as real) / (total as real) * 100.0 else 0.0
  }

  /** The response when no row is available or none matches. */
  function EmptyMetricsResponse(market: Option<string>, category: Option<string>): (r: MetricsResponse)
    ensures r.context.itemsAnalyzed == 0 && r.context.counts.None?
    ensures r.context.market == ContextLabel(market, "All Markets")
    ensures r.context.category == ContextLabel(category, "All Categories")
    ensures r.businessImpact == BusinessImpact(0, 0, 0, 95, Level, NoCostData)
    ensures r.inactionRisk == InactionRisk(0, 0, 0, "No data available")
  {
    MetricsResponse(
      BusinessImpact(0, 0, 0, 95, Level, NoCostData),
      InactionRisk(0, 0, 0, "No data available"),
      MetricsContext(ContextLabel(market, "All Markets"), ContextLabel(category, "All Categories"), 0, None))
  }

  /** How many rows carry each demand-risk level (`value_counts`, with zero
      for a level no row has). */
  function LevelCounts(rows: seq<LoadedRow>): (counts: RiskCounts)
    ensures counts.high + counts.medium + counts.low == |rows|
  {
    var levels := Levels(rows);
    CountsPartition(levels);
    RiskCounts(CountLevel(levels, High), CountLevel(levels, Medium), CountLevel(levels, Low))
  }

  /** The metrics of a non-empty selection of rows. */
  function FilteredMetrics(filtered: seq<LoadedRow>, market: Option<string>, category: Option<string>)
    : (r: MetricsResponse)
    requires |filtered| > 0
    ensures r.context == MetricsContext(ContextLabel(market, "All Markets"), ContextLabel(category, "All Categories"),
      |filtered|, Some(LevelCounts(filtered)))
    ensures var high := LevelCounts(filtered).high as real;
      && (r.businessImpact.costDirection == Rising <==> high * 2.0 > |filtered| as real)
      && (r.businessImpact.costDirection == Falling <==> high * 4.0 <= |filtered| as real)
    ensures var counts := LevelCounts(filtered);
      r.businessImpact.costText == CostTextOf(SharePct(counts.high, |filtered|), SharePct(counts.low, |filtered|))
    ensures r.businessImpact.safetyBufferPct as real == BufferPct(TotalForecast(filtered), TotalOrder(filtered))
    ensures r.businessImpact.stockoutRiskAvoided == StockoutRiskAvoided(r.businessImpact.safetyBufferPct as real)
    ensures r.businessImpact.expectedServiceLevel == ExpectedServiceLevel(r.businessImpact.safetyBufferPct as real)
    ensures r.businessImpact.safetyBufferUnits == Trunc(TotalOrder(filtered) - TotalForecast(filtered))
    ensures r.inactionRisk == InactionRisk(15, RoundHalfEven(TotalForecast(filtered) * 0.05), 15,
      "Optimize portfolio based on cost-service balance")
  {
    var totalForecast := TotalForecast(filtered);
    var totalOrder := TotalOrder(filtered);
    var counts := LevelCounts(filtered);
    var bufferPct := BufferPct(totalForecast, totalOrder);
    var highPct := SharePct(counts.high, |filtered|);
    var lowPct := SharePct(counts.low, |filtered|);
    ShareThresholds(counts.high, |filtered|);
    MetricsResponse(
      BusinessImpact(
        StockoutRiskAvoided(bufferPct),
        Trunc(bufferPct),
        Trunc(totalOrder - totalForecast),
        ExpectedServiceLevel(bufferPct),
        CostDirectionOf(highPct),
        CostTextOf(highPct, lowPct)),
      InactionRisk(15, RoundHalfEven(totalForecast * 0.05), 15,
        "Optimize portfolio based on cost-service balance"),
      MetricsContext(ContextLabel(market, "All Markets"), ContextLabel(category, "All Categories"),
        |filtered|, Some(counts)))
  }

  /** GET /inventory/metrics over the enriched rows: the empty response when
      no row passes the filters, the metrics of the selection otherwise. */
  function GetInventoryMetrics(loaded: seq<LoadedRow>, market: Option<string>, category: Option<string>)
    : (r: MetricsResponse)
    ensures |FilterRows(loaded, market, category)| == 0 <==> r == EmptyMetricsResponse(market, category)
    ensures |FilterRows(loaded, market, category)| > 0 ==>
      r == FilteredMetrics(FilterRows(loaded, market, category), market, category)
    ensures r.context.itemsAnalyzed == |FilterRows(loaded, market, category)|
    ensures r.context.market == ContextLabel(market, "All Markets")
    ensures r.context.category == ContextLabel(category, "All Categories")
    ensures r.context.counts.Some? ==>
      r.context.counts.value.high + r.context.counts.value.medium + r.context.counts.value.low
        == r.context.itemsAnalyzed
    ensures r.businessImpact.expectedServiceLevel <= 99
    ensures r.context.counts.Some? ==>
      var filtered := FilterRows(loaded, market, category);
      && TotalForecast(filtered) * 0.05 - 0.5 <= r.inactionRisk.potentialLostUnits as real
           <= TotalForecast(filtered) * 0.05 + 0.5
      && (TotalForecast(filtered) <= 0.0 ==> r.businessImpact.safetyBufferPct == 0)
  {
    var filtered := FilterRows(loaded, market, category);
    if |filtered| == 0 then EmptyMetricsResponse(market, category)
    else FilteredMetrics(filtered, market, category)
  }

  /** The percentage thresholds of the cost direction in terms of counts. */
  lemma ShareThresholds(count: nat, total: nat)
    requires total > 0
    ensures SharePct(count, total) > 50.0 <==> (count as real) * 2.0 > total as real
    ensures SharePct(count, total) > 25.0 <==> (count as real) * 4.0 > total as real
  {
    ShareAbove(count, total, 50.0);
    ShareAbove(count, total, 25.0);
  }

  /** A share exceeds `bound` percent exactly when `count` is more than
      `bound` hundredths of `total`. */
  lemma ShareAbove(count: nat, total: nat, bound: real)
    requires total > 0
    ensures SharePct(count, total) > bound <==> (count as real) * 100.0 > bound * (total as real)
  {
    var pct, t, c := SharePct(count, total), total as real, count as real;
    assert pct * t == c * 100.0;
    ScaleByPositive(pct, bound, t);
    if pct > bound {
      assert pct * t > bound * t;
    } else {
      assert pct * t <= bound * t;
    }
  }

  /** The plan and the metrics of the same filters count the same rows. */
  lemma PlanAndMetricsAgree(loaded: seq<LoadedRow>, market: Option<string>, category: Option<string>, limit: int)
    requires 1 <= limit <= 100 && |FilterRows(loaded, market, category)| > 0
    ensures var plan := GetInventoryPlan(loaded, market, category, limit);
      var metrics := GetInventoryMetrics(loaded, market, category);
      && plan.Ok? && plan.value.summary.Some? && metrics.context.counts.Some?
      && plan.value.summary.value.totalItems == metrics.context.itemsAnalyzed
      && plan.value.summary.value.highRiskCount == metrics.context.counts.value.high
      && plan.value.summary.value.mediumRiskCount == metrics.context.counts.value.medium
      && plan.value.summary.value.lowRiskCount == metrics.context.counts.value.low
  {
  }
}

=== FILE: inventory_planning.dfy ===
/** Market-level inventory plan (backend/app/routers/inventory_planning.py):
    row enrichment with market, display names and a relative risk level,
    market/category filtering, the summary block, and the ranked, truncated
    list of recommendations. The CSV reading and merging are left to the
    caller, which passes the merged rows; the 25th/75th percentiles of the
    safety-buffer ratio are parameters. */
module InventoryPlanning {

  import opened Optional
  import opened Numeric
  import opened Text
  import opened Seqs
  import opened Sorting
  import opened RiskLevels

  /** One recommendation row merged with its category, region and, when the
      cleaned data carries it, its product name. */
  datatype PlanRow = PlanRow(
    storeId: string,
    productId: string,
    productName: Option<string>,
    category: string,
    region: Option<string>,
    forecastUnits: real,
    recommendedOrderQty: real,
    safetyStock: real)

  const RegionToMarket: map<string, string> :=
    map["North" := "North America", "South" := "APAC", "East" := "APAC", "West" := "Europe"]

  const CategoryDisplayNames: map<string, string> :=
    map["Electronics" := "Consumer Electronics", "Clothing" := "Apparel & Fashion",
        "Groceries" := "Consumer Goods", "Toys" := "Toys & Games",
        "Furniture" := "Home & Furniture"]

  /** Display names for a few product ids, used when the data has none. */
  const ProductNames: map<string, string> :=
    map["P0007" := "Noise-Canceling Headphones", "P0012" := "Smart Home Speaker",
        "P0018" := "Wireless Earbuds", "P0025" := "4K Action Camera",
        "P0031" := "Portable Bluetooth Speaker", "P0044" := "Ergonomic Office Chair",
        "P0050" := "Stainless Steel Cookware Set"]

  /** The market of a region; unmapped or missing regions become "Other". */
  function MarketOf(region: Option<string>): (m: string)
    ensures region.Some? && region.value in RegionToMarket ==> m == RegionToMarket[region.value]
    ensures region.None? || region.value !in RegionToMarket ==> m == "Other"
  {
    if region.Some? && region.value in RegionToMarket then RegionToMarket[region.value] else "Other"
  }

  /** Every row lands in one of four markets. */
  lemma MarketsAreKnown(region: Option<string>)
    ensures MarketOf(region) in {"North America", "APAC", "Europe", "Other"}
  {
  }

  /** The display name of a category, or the category itself when unmapped. */
  function CategoryDisplay(category: string): (d: string)
    ensures category in CategoryDisplayNames ==> d == CategoryDisplayNames[category]
    ensures category !in CategoryDisplayNames ==> d == category
  {
    if category in CategoryDisplayNames then CategoryDisplayNames[category] else category
  }

  /** The product name shown for a row: the stripped name from the data when
      present (even if it strips to nothing), else the fixed name of the id,
      else "Product <id>". */
  function ProductDisplayName(productName: Option<string>, productId: string): (name: string)
    ensures productName.Some? ==> name == Strip(Python, productName.value)
    ensures productName.None? && productId in ProductNames ==> name == ProductNames[productId]
    ensures productName.None? && productId !in ProductNames ==> name == "Product " + productId
  {
    if productName.Some? then Strip(Python, productName.value)
    else if productId in ProductNames then ProductNames[productId]
    else "Product " + productId
  }

  /** Without a name in the data, the displayed name is never blank. */
  lemma FallbackNameVisible(productId: string)
    ensures HasVisible(Python, ProductDisplayName(None, productId))
  {
    var name := ProductDisplayName(None, productId);
    assert !IsSpace(Python, name[0]);
  }

  /** A float quotient as pandas computes it: division by zero gives an
      infinity of the numerator's sign, or NaN for 0/0. */
  datatype Ratio = Finite(value: real) | PosInf | NegInf | NaN

  /** (order - forecast) / forecast, the safety-buffer ratio of a row. */
  function SafetyBufferRatio(orderQty: real, forecast: real): (r: Ratio)
    ensures forecast != 0.0 ==> r == Finite((orderQty - forecast) / forecast)
    ensures forecast == 0.0 ==> (r == PosInf <==> orderQty > 0.0) && (r == NaN <==> orderQty == 0.0)
    ensures r != NegInf || (forecast == 0.0 && orderQty < 0.0)
  {
    if forecast != 0.0 then Finite((orderQty - forecast) / forecast)
    else if orderQty > 0.0 then PosInf
    else if orderQty < 0.0 then NegInf
    else NaN
  }

  /** `ratio >= threshold` on floats: false for NaN. */
  predicate AtLeast(ratio: Ratio, threshold: real) {
    match ratio
    case Finite(v) => v >= threshold
    case PosInf => true
    case NegInf => false
    case NaN => false
  }

  /** High from the 75th percentile up, Medium from the 25th, Low below. */
  function AssignRiskLevel(ratio: Ratio, p25: real, p75: real): (r: Risk)
    ensures r == High <==> AtLeast(ratio, p75)
    ensures r == Medium <==> !AtLeast(ratio, p75) && AtLeast(ratio, p25)
    ensures r == Low <==> !AtLeast(ratio, p75) && !AtLeast(ratio, p25)
  {
    if AtLeast(ratio, p75) then High
    else if AtLeast(ratio, p25) then Medium
    else Low
  }

  /** With ordered quartiles the level of a finite ratio follows its band,
      and the labelling is monotone: a larger ratio never gets a lower level. */
  lemma AssignRiskMonotone(a: real, b: real, p25: real, p75: real)
    requires p25 <= p75 && a <= b
    ensures AssignRiskLevel(Finite(b), p25, p75).Priority() <= AssignRiskLevel(Finite(a), p25, p75).Priority()
    ensures AssignRiskLevel(Finite(a), p25, p75) == Medium <==> p25 <= a < p75
  {
  }

  /** A row after enrichment. */
  datatype LoadedRow = LoadedRow(
    row: PlanRow,
    market: string,
    categoryDisplay: string,
    productNameDisplay: string,
    demandRisk: Risk)

  /** Enriches every row: market from region, display names, and the risk
      level of its safety-buffer ratio against the given quartiles. */
  function LoadRecommendations(rows: seq<PlanRow>, p25: real, p75: real): (loaded: seq<LoadedRow>)
    ensures |loaded| == |rows|
    ensures forall i :: 0 <= i < |rows| ==> loaded[i] == LoadedRow(rows[i],
      MarketOf(rows[i].region), CategoryDisplay(rows[i].category),
      ProductDisplayName(rows[i].productName, rows[i].productId),
      AssignRiskLevel(SafetyBufferRatio(rows[i].recommendedOrderQty, rows[i].forecastUnits), p25, p75))
  {
    seq(|rows|, i requires 0 <= i < |rows| => LoadedRow(rows[i],
      MarketOf(rows[i].region), CategoryDisplay(rows[i].category),
      ProductDisplayName(rows[i].productName, rows[i].productId),
      AssignRiskLevel(SafetyBufferRatio(rows[i].recommendedOrderQty, rows[i].forecastUnits), p25, p75)))
  }

  /** A missing, empty or "all" (in any letter case) filter selects everything. */
  predicate KeepsAll(filter: Option<string>) {
    filter.None? || filter.value == "" || Lower(filter.value) == "all"
  }

  /** Whether a row value passes a filter: equal ignoring case, unless the
      filter keeps everything. */
  predicate Matches(filter: Option<string>, value: string) {
    KeepsAll(filter) || EqualsIgnoringCase(value, filter.value)
  }

  /** The rows of the requested market and category, in their original order. */
  function FilterRows(rows: seq<LoadedRow>, market: Option<string>, category: Option<string>): (r: seq<LoadedRow>)
    ensures |r| <= |rows|
    ensures forall x :: x in r <==> x in rows && Matches(market, x.market) && Matches(category, x.row.category)
    ensures KeepsAll(market) && KeepsAll(category) ==> r == rows
    ensures forall x :: x in rows ==>
              multiset(r)[x] == if Matches(market, x.market) && Matches(category, x.row.category)
                                then multiset(rows)[x] else 0
  {
    var byMarket := Filter(rows, (x: LoadedRow) => Matches(market, x.market));
    var r := Filter(byMarket, (x: LoadedRow) => Matches(category, x.row.category));
    if KeepsAll(market) && KeepsAll(category) then
      FilterAll(rows, (x: LoadedRow) => Matches(market, x.market));
      FilterAll(byMarket, (x: LoadedRow) => Matches(category, x.row.category));
      r
    else
      r
  }

  /** Appending a row appends it to the selection exactly when it passes both
      filters: the selection keeps the table order. */
  lemma FilterRowsSnoc(rows: seq<LoadedRow>, x: LoadedRow, market: Option<string>, category: Option<string>)
    ensures FilterRows(rows + [x], market, category) ==
      FilterRows(rows, market, category)
        + (if Matches(market, x.market) && Matches(category, x.row.category) then [x] else [])
  {
    var byMarket := (y: LoadedRow) => Matches(market, y.market);
    var byCategory := (y: LoadedRow) => Matches(category, y.row.category);
    FilterSnoc(rows, x, byMarket);
    FilterAppend(Filter(rows, byMarket), if byMarket(x) then [x] else [], byCategory);
    if byMarket(x) {
      FilterSnoc([], x, byCategory);
      assert [] + [x] == [x];
    }
  }

  datatype PlanSummary = PlanSummary(
    totalItems: nat,
    totalForecast: real,
    totalOrderQty: real,
    avgSafetyBufferPct: real,
    highRiskCount: nat,
    mediumRiskCount: nat,
    lowRiskCount: nat,
    marketContext: string,
    categoryContext: string)

  /** `filter or fallback`: the filter text unless it is missing or empty. */
  function ContextLabel(filter: Option<string>, fallback: string): (shown: string)
    ensures filter.Some? && filter.value != "" ==> shown == filter.value
    ensures filter.None? || filter.value == "" ==> shown == fallback
  {
    if filter.Some? && filter.value != "" then filter.value else fallback
  }

  /** The summary reported when no row passes the filters. */
  function EmptySummary(market: Option<string>, category: Option<string>): (s: PlanSummary)
    ensures s.totalItems == 0 && s.totalForecast == 0.0 && s.totalOrderQty == 0.0
    ensures s.avgSafetyBufferPct == 0.0
    ensures s.highRiskCount == 0 && s.mediumRiskCount == 0 && s.lowRiskCount == 0
    ensures s.marketContext == ContextLabel(market, "All Markets")
    ensures s.categoryContext == ContextLabel(category, "All Categories")
  {
    PlanSummary(0, 0.0, 0.0, 0.0, 0, 0, 0,
      ContextLabel(market, "All Markets"), ContextLabel(category, "All Categories"))
  }

  /** The risk levels of the rows, in order. */
  function Levels(rows: seq<LoadedRow>): (levels: seq<Risk>)
    ensures |levels| == |rows|
    ensures forall i :: 0 <= i < |rows| ==> levels[i] == rows[i].demandRisk
  {
    seq(|rows|, i requires 0 <= i < |rows| => rows[i].demandRisk)
  }

  function TotalForecast(rows: seq<LoadedRow>): real {
    SumOf(rows, (x: LoadedRow) => x.row.forecastUnits)
  }

  function TotalOrder(rows: seq<LoadedRow>): real {
    SumOf(rows, (x: LoadedRow) => x.row.recommendedOrderQty)
  }

  /** Total safety stock as a percentage of total forecast, to one decimal;
      zero when the total forecast is not positive. */
  function AvgSafetyPct(totalForecast: real, totalOrder: real): (pct: real)
    ensures totalForecast <= 0.0 ==> pct == 0.0
    ensures totalForecast > 0.0 ==> var exact := (totalOrder - totalForecast) / totalForecast * 100.0;
      && exact - 0.05 <= pct <= exact + 0.05
      && pct * 10.0 == RoundHalfEven(exact * 10.0) as real
  {
    if totalForecast > 0.0 then RoundTo((totalOrder - totalForecast) / totalForecast * 100.0, 1)
    else 0.0
  }

  /** The summary block over the filtered rows: item count, rounded totals,
      average safety buffer, and the number of rows at each risk level. */
  function Summarize(rows: seq<LoadedRow>, market: Option<string>, category: Option<string>): (s: PlanSummary)
    ensures s.totalItems == |rows|
    ensures s.highRiskCount == CountLevel(Levels(rows), High)
    ensures s.mediumRiskCount == CountLevel(Levels(rows), Medium)
    ensures s.lowRiskCount == CountLevel(Levels(rows), Low)
    ensures s.highRiskCount + s.mediumRiskCount + s.lowRiskCount == s.totalItems
    ensures IsIntegral(s.totalOrderQty) && TotalOrder(rows) - 0.5 <= s.totalOrderQty <= TotalOrder(rows) + 0.5
    ensures IsIntegral(s.totalForecast) && TotalForecast(rows) - 0.5 <= s.totalForecast <= TotalForecast(rows) + 0.5
    ensures s.totalOrderQty == RoundHalfEven(TotalOrder(rows)) as real
    ensures s.totalForecast == RoundHalfEven(TotalForecast(rows)) as real
    ensures s.avgSafetyBufferPct == AvgSafetyPct(TotalForecast(rows), TotalOrder(rows))
    ensures TotalForecast(rows) <= 0.0 ==> s.avgSafetyBufferPct == 0.0
    ensures s.marketContext == ContextLabel(market, "All Markets")
    ensures s.categoryContext == ContextLabel(category, "All Categories")
  {
    var levels := Levels(rows);
    CountsPartition(levels);
    var totalForecast := TotalForecast(rows);
    var totalOrder := TotalOrder(rows);
    PlanSummary(
      |rows|,
      RoundHalfEven(totalForecast) as real,
      RoundHalfEven(totalOrder) as real,
      AvgSafetyPct(totalForecast, totalOrder),
      CountLevel(levels, High), CountLevel(levels, Medium), CountLevel(levels, Low),
      ContextLabel(market, "All Markets"), ContextLabel(category, "All Categories"))
  }

  /** One entry of the recommendations list. */
  datatype PlanItem = PlanItem(
    productId: string,
    productName: string,
    category: string,
    market: string,
    forecastUnits: real,
    recommendedOrderQty: int,
    safetyStock: int,
    safetyBufferPct: real,
    riskLevel: Risk)

  /** A row's safety stock as a percentage of its forecast, to one decimal;
      zero when the forecast is not positive. */
  function RowSafetyPct(row: PlanRow): (pct: real)
    ensures row.forecastUnits <= 0.0 ==> pct == 0.0
    ensures row.forecastUnits > 0.0 ==>
      var exact := (row.recommendedOrderQty - row.forecastUnits) / row.forecastUnits * 100.0;
      && exact - 0.05 <= pct <= exact + 0.05
      && pct * 10.0 == RoundHalfEven(exact * 10.0) as real
  {
    AvgSafetyPct(row.forecastUnits, row.recommendedOrderQty)
  }

  /** The response entry of a row: forecast rounded, quantities truncated
      to integers, and the row's own safety-buffer percentage. */
  function ToPlanItem(x: LoadedRow): (item: PlanItem)
    ensures item.productId == x.row.productId && item.productName == x.productNameDisplay
    ensures item.category == x.categoryDisplay && item.market == x.market
    ensures item.riskLevel == x.demandRisk
    ensures item.recommendedOrderQty == Trunc(x.row.recommendedOrderQty)
    ensures item.safetyStock == Trunc(x.row.safetyStock)
    ensures IsIntegral(item.forecastUnits)
    ensures x.row.forecastUnits - 0.5 <= item.forecastUnits <= x.row.forecastUnits + 0.5
    ensures item.forecastUnits == RoundHalfEven(x.row.forecastUnits) as real
    ensures item.safetyBufferPct == RowSafetyPct(x.row)
  {
    PlanItem(x.row.productId, x.productNameDisplay, x.categoryDisplay, x.market,
      RoundHalfEven(x.row.forecastUnits) as real,
      Trunc(x.row.recommendedOrderQty), Trunc(x.row.safetyStock),
      RowSafetyPct(x.row), x.demandRisk)
  }

  /** Listing order: by risk priority (High first), then by larger order
      quantity. */
  function PlanBefore(a: LoadedRow, b: LoadedRow): bool {
    || a.demandRisk.Priority() < b.demandRisk.Priority()
    || (a.demandRisk.Priority() == b.demandRisk.Priority()
        && a.row.recommendedOrderQty > b.row.recommendedOrderQty)
  }

  lemma PlanOrderIsStrictWeak()
    ensures StrictWeakOrder(PlanBefore)
  {
  }

  /** The first `limit` rows in listing order: sorted, drawn from the input,
      and no row left out precedes a row kept. */
  function TopRecommendations(rows: seq<LoadedRow>, limit: nat): (top: seq<LoadedRow>)
    ensures |top| == if limit < |rows| then limit else |rows|
    ensures SortedBy(top, PlanBefore)
    ensures multiset(top) <= multiset(rows)
    ensures forall x, y :: x in top && y in multiset(rows) - multiset(top) ==> !PlanBefore(y, x)
  {
    var sorted := SortBy(rows, PlanBefore);
    PlanOrderIsStrictWeak();
    SortBySorted(rows, PlanBefore);
    var k := if limit < |rows| then limit else |rows|;
    PrefixIsTop(sorted, k);
    sorted[..k]
  }

  /** A prefix of a sorted sequence holds its leading elements. */
  lemma PrefixIsTop(sorted: seq<LoadedRow>, k: nat)
    requires k <= |sorted| && SortedBy(sorted, PlanBefore)
    ensures SortedBy(sorted[..k], PlanBefore)
    ensures multiset(sorted[..k]) <= multiset(sorted)
    ensures multiset(sorted) - multiset(sorted[..k]) == multiset(sorted[k..])
    ensures forall x, y :: x in sorted[..k] && y in multiset(sorted[k..]) ==> !PlanBefore(y, x)
  {
    assert sorted == sorted[..k] + sorted[k..];
    forall x, y | x in sorted[..k] && y in multiset(sorted[k..])
      ensures !PlanBefore(y, x)
    {
      var i :| 0 <= i < k && sorted[i] == x;
      assert y in sorted[k..];
      var j :| 0 <= j < |sorted| - k && sorted[k..][j] == y;
      assert sorted[k + j] == y;
    }
  }

  /** Entries are listed by risk priority, then by non-increasing order quantity. */
  predicate RankedByRiskThenQty(items: seq<PlanItem>) {
    forall i, j :: 0 <= i < j < |items| ==>
      || items[i].riskLevel.Priority() < items[j].riskLevel.Priority()
      || (items[i].riskLevel == items[j].riskLevel
          && items[i].recommendedOrderQty >= items[j].recommendedOrderQty)
  }

  /** Converting sorted rows keeps the ranking. */
  lemma {:induction false} RankingSurvivesConversion(top: seq<LoadedRow>)
    requires SortedBy(top, PlanBefore)
    ensures RankedByRiskThenQty(seq(|top|, i requires 0 <= i < |top| => ToPlanItem(top[i])))
  {
    var items := seq(|top|, i requires 0 <= i < |top| => ToPlanItem(top[i]));
    forall i, j | 0 <= i < j < |items|
      ensures || items[i].riskLevel.Priority() < items[j].riskLevel.Priority()
              || (items[i].riskLevel == items[j].riskLevel
                  && items[i].recommendedOrderQty >= items[j].recommendedOrderQty)
    {
      assert !PlanBefore(top[j], top[i]);
      NameAndPriorityInjective(top[i].demandRisk, top[j].demandRisk);
      if top[i].demandRisk == top[j].demandRisk {
        TruncMonotone(top[j].row.recommendedOrderQty, top[i].row.recommendedOrderQty);
      }
    }
  }

  /** The response entries for the matching rows: the first `limit` rows in
      listing order, converted. */
  function RankedItems(filtered: seq<LoadedRow>, limit: nat): (items: seq<PlanItem>)
    ensures |items| == if limit < |filtered| then limit else |filtered|
    ensures RankedByRiskThenQty(items)
    ensures forall item :: item in items ==> exists x :: x in filtered && item == ToPlanItem(x)
    ensures var top := TopRecommendations(filtered, limit);
      |items| == |top| && forall i :: 0 <= i < |top| ==> items[i] == ToPlanItem(top[i])
  {
    var top := TopRecommendations(filtered, limit);
    var items := seq(|top|, i requires 0 <= i < |top| => ToPlanItem(top[i]));
    RankingSurvivesConversion(top);
    assert forall item :: item in items ==> exists x :: x in filtered && item == ToPlanItem(x) by {
      forall item | item in items
        ensures exists x :: x in filtered && item == ToPlanItem(x)
      {
        var i :| 0 <= i < |items| && items[i] == item;
        assert top[i] in multiset(top);
        assert top[i] in multiset(filtered);
      }
    }
    items
  }

  datatype PlanResponse = PlanResponse(
    summary: Option<PlanSummary>,
    recommendations: seq<PlanItem>,
    marketFilter: Option<string>,
    categoryFilter: Option<string>)

  /** The framework rejects a limit outside 1..100 before the handler runs. */
  datatype PlanError = LimitOutOfRange

  /** GET /inventory/plan over the enriched rows. No rows at all gives no
      summary; no matching rows gives the all-zero summary; otherwise the
      summary of the matching rows and their first `limit` entries in
      listing order. */
  function GetInventoryPlan(loaded: seq<LoadedRow>, market: Option<string>, category: Option<string>, limit: int)
    : (r: Result<PlanResponse, PlanError>)
    ensures r.Err? <==> !(1 <= limit <= 100)
    ensures r.Ok? ==> r.value.marketFilter == market && r.value.categoryFilter == category
    ensures r.Ok? ==> (r.value.summary.None? <==> |loaded| == 0)
    ensures r.Ok? && |loaded| == 0 ==> r.value.recommendations == []
    ensures r.Ok? && |loaded| > 0 && |FilterRows(loaded, market, category)| == 0 ==>
      r.value.summary == Some(EmptySummary(market, category)) && r.value.recommendations == []
    ensures r.Ok? && r.value.summary.Some? ==>
      r.value.summary.value.totalItems == |FilterRows(loaded, market, category)|
    ensures r.Ok? && r.value.summary.Some? ==>
      r.value.summary.value.highRiskCount + r.value.summary.value.mediumRiskCount
        + r.value.summary.value.lowRiskCount == r.value.summary.value.totalItems
    ensures r.Ok? ==> |r.value.recommendations| <= limit
    ensures r.Ok? && |loaded| > 0 ==>
      var n := |FilterRows(loaded, market, category)|;
      |r.value.recommendations| == if limit < n then limit else n
    ensures r.Ok? ==> RankedByRiskThenQty(r.value.recommendations)
    ensures r.Ok? ==> forall item :: item in r.value.recommendations ==>
      exists x :: x in FilterRows(loaded, market, category) && item == ToPlanItem(x)
    ensures r.Ok? && |FilterRows(loaded, market, category)| > 0 ==>
      var filtered := FilterRows(loaded, market, category);
      && r.value.summary == Some(Summarize(filtered, market, category))
      && r.value.recommendations == RankedItems(filtered, limit)
  {
    if !(1 <= limit <= 100) then Err(LimitOutOfRange)
    else if |loaded| == 0 then Ok(PlanResponse(None, [], market, category))
    else
      var filtered := FilterRows(loaded, market, category);
      if |filtered| == 0 then
        Ok(PlanResponse(Some(EmptySummary(market, category)), [], market, category))
      else
        Ok(PlanResponse(Some(Summarize(filtered, market, category)),
          RankedItems(filtered, limit), market, category))
  }

  /** The entries of an accepted plan request are the converted leading rows
      of the selection in listing order: no matching row left out of the
      list comes before one that is listed. */
  lemma PlanRecommendationsAreTop(loaded: seq<LoadedRow>, market: Option<string>, category: Option<string>, limit: int)
    requires 1 <= limit <= 100
    ensures var filtered := FilterRows(loaded, market, category);
      var top := TopRecommendations(filtered, limit);
      var recs := GetInventoryPlan(loaded, market, category, limit).value.recommendations;
      && |recs| == |top|
      && (forall i :: 0 <= i < |top| ==> recs[i] == ToPlanItem(top[i]))
      && (forall x, y :: x in top && y in multiset(filtered) - multiset(top) ==> !PlanBefore(y, x))
  {
    var filtered := FilterRows(loaded, market, category);
    if |filtered| == 0 {
      assert |TopRecommendations(filtered, limit)| == 0;
    }
  }
}

=== FILE: inventory_service.dfy ===
/** Order recommendations and relative risk labelling
    (backend/app/services/inventory_service.py). The configured Z score is
    read from a settings file in the source; here it is a parameter. */
module InventoryService {

  import opened Optional
  import opened Numeric
  import opened Sorting
  import opened RiskLevels

  /** One recommendation as `recommend` builds it; `riskLevel` is filled in
      later by `ApplyRelativeRisk`. */
  datatype Recommendation = Recommendation(
    forecastUnits: real,
    safetyStock: real,
    recommendedOrderQty: int,
    rollingStd: real,
    riskLevel: Option<Risk>)

  /** Safety stock: the demand volatility scaled by the Z score. */
  function SafetyStock(volatility: real, zScore: real): (s: real)
    ensures volatility == 0.0 ==> s == 0.0
    ensures volatility == 1.0 ==> s == zScore
    ensures volatility >= 0.0 && zScore >= 0.0 ==> s >= 0.0
  {
    assert volatility >= 0.0 && zScore >= 0.0 ==> volatility * zScore >= 0.0 by {
      if volatility >= 0.0 && zScore >= 0.0 {
        MulNonNegative(volatility, zScore);
      }
    }
    volatility * zScore
  }

  /** Safety stock is proportional to volatility: scaling the volatility by
      `k` scales the safety stock by `k`. With `SafetyStock(1, z) == z` this
      pins it to volatility times Z. */
  lemma SafetyStockProportional(k: real, volatility: real, zScore: real)
    ensures SafetyStock(k * volatility, zScore) == k * SafetyStock(volatility, zScore)
  {
    assert SafetyStock(k * volatility, zScore) == (k * volatility) * zScore;
    assert SafetyStock(volatility, zScore) == volatility * zScore;
    assert (k * volatility) * zScore == k * (volatility * zScore);
    assert k * SafetyStock(volatility, zScore) == k * (volatility * zScore);
  }

  /** With a non-negative Z score, more volatility never means less safety stock. */
  lemma {:induction false} SafetyStockMonotone(v1: real, v2: real, zScore: real)
    requires v1 <= v2 && zScore >= 0.0
    ensures SafetyStock(v1, zScore) <= SafetyStock(v2, zScore)
  {
    assert SafetyStock(v1, zScore) == v1 * zScore;
    assert SafetyStock(v2, zScore) == v2 * zScore;
    MulNonNegative(v2 - v1, zScore);
    assert (v2 - v1) * zScore == v2 * zScore - v1 * zScore;
  }

  /** Forecast plus safety stock, rounded half-to-even and never negative;
      forecast and safety stock are reported to two decimals and the
      volatility is echoed as the rolling deviation. */
  function Recommend(forecastUnits: real, volatility: real, zScore: real): (r: Recommendation)
    ensures r.recommendedOrderQty >= 0
    ensures var need := forecastUnits + SafetyStock(volatility, zScore);
      && (need <= 0.5 ==> r.recommendedOrderQty == 0)
      && (need > 0.5 ==> need - 0.5 <= r.recommendedOrderQty as real <= need + 0.5)
      && r.recommendedOrderQty == (if RoundHalfEven(need) >= 0 then RoundHalfEven(need) else 0)
    ensures r.rollingStd == volatility && r.riskLevel.None?
    ensures r.forecastUnits == RoundTo(forecastUnits, 2)
    ensures r.safetyStock == RoundTo(SafetyStock(volatility, zScore), 2)
  {
    var safety := SafetyStock(volatility, zScore);
    var qty := RoundHalfEven(forecastUnits + safety);
    Recommendation(
      RoundTo(forecastUnits, 2), RoundTo(safety, 2),
      if qty >= 0 then qty else 0, volatility, None)
  }

  /** Non-decreasing order. */
  predicate Ascending(s: seq<real>) {
    forall i, j :: 0 <= i <= j < |s| ==> s[i] <= s[j]
  }

  /** Strict "less than" on reals, the ordering numpy sorts by. */
  function Less(a: real, b: real): bool {
    a < b
  }

  /** The values in ascending order. */
  function SortAscending(vals: seq<real>): (r: seq<real>)
    ensures |r| == |vals| && multiset(r) == multiset(vals)
    ensures Ascending(r)
  {
    assert StrictWeakOrder(Less);
    SortBySorted(vals, Less);
    SortBy(vals, Less)
  }

  /** numpy's default ("linear") percentile of ascending data: the value at
      fractional position p% of the way from the first to the last element. */
  function PercentileOfSorted(s: seq<real>, p: real): (r: real)
    requires |s| > 0 && 0.0 <= p <= 100.0 && Ascending(s)
    ensures s[0] <= r <= s[|s| - 1]
    ensures p == 0.0 ==> r == s[0]
    ensures p == 100.0 ==> r == s[|s| - 1]
    ensures var pos := Position(|s|, p); var k := Floor(pos);
      && 0 <= k < |s|
      && (IsIntegral(pos) ==> r == s[k])
      && (k + 1 < |s| ==> r == s[k] + (pos - k as real) * (s[k + 1] - s[k]))
  {
    Interpolate(s, Position(|s|, p))
  }

  /** The fractional index p% of the way through `n` elements. */
  function Position(n: nat, p: real): (pos: real)
    requires n > 0 && 0.0 <= p <= 100.0
    ensures 0.0 <= pos <= (n - 1) as real
    ensures p == 0.0 ==> pos == 0.0
    ensures p == 100.0 ==> pos == (n - 1) as real
  {
    var fraction := p / 100.0;
    MulNonNegative(fraction, (n - 1) as real);
    MulNonNegative(1.0 - fraction, (n - 1) as real);
    fraction * (n - 1) as real
  }

  /** The point a fraction `t` of the way from `a` to `b >= a`; it lies
      between them. */
  function Lerp(a: real, b: real, t: real): (r: real)
    requires a <= b && 0.0 <= t <= 1.0
    ensures a <= r <= b
    ensures t == 0.0 ==> r == a
  {
    MulNonNegative(t, b - a);
    MulNonNegative(1.0 - t, b - a);
    assert (1.0 - t) * (b - a) == (b - a) - t * (b - a);
    a + t * (b - a)
  }

  /** Moving further along the segment never goes back. */
  lemma LerpMonotone(a: real, b: real, t: real, u: real)
    requires a <= b && 0.0 <= t <= u <= 1.0
    ensures Lerp(a, b, t) <= Lerp(a, b, u)
  {
    MulNonNegative(u - t, b - a);
    assert (u - t) * (b - a) == u * (b - a) - t * (b - a);
  }

  /** The value at fractional index `pos`, linearly interpolated between the
      two neighbouring elements. */
  function Interpolate(s: seq<real>, pos: real): (r: real)
    requires |s| > 0 && 0.0 <= pos <= (|s| - 1) as real && Ascending(s)
    ensures s[0] <= r <= s[|s| - 1]
    ensures var k := Floor(pos);
      && 0 <= k < |s|
      && (IsIntegral(pos) ==> r == s[k])
      && (k + 1 < |s| ==> r == s[k] + (pos - k as real) * (s[k + 1] - s[k]))
  {
    var lo := Floor(pos);
    assert 0 <= lo < |s|;
    assert s[0] <= s[lo];
    if lo + 1 < |s| then
      assert s[lo] <= s[lo + 1] <= s[|s| - 1];
      Lerp(s[lo], s[lo + 1], pos - lo as real)
    else
      s[lo]
  }

  /** The position grows with the percentile. */
  lemma PositionMonotone(n: nat, p: real, q: real)
    requires n > 0 && 0.0 <= p <= q <= 100.0
    ensures Position(n, p) <= Position(n, q)
  {
    MulNonNegative(q / 100.0 - p / 100.0, (n - 1) as real);
  }

  /** Interpolation grows with the position. */
  lemma {:induction false} InterpolateMonotone(s: seq<real>, x: real, y: real)
    requires |s| > 0 && 0.0 <= x <= y <= (|s| - 1) as real && Ascending(s)
    ensures Interpolate(s, x) <= Interpolate(s, y)
  {
    var lx, ly := Floor(x), Floor(y);
    var fx, fy := x - lx as real, y - ly as real;
    assert 0 <= lx <= ly < |s|;
    if lx == ly {
      if lx + 1 < |s| {
        assert s[lx] <= s[lx + 1];
        LerpMonotone(s[lx], s[lx + 1], fx, fy);
      }
    } else {
      assert s[lx + 1] <= s[ly];
      assert Interpolate(s, x) <= s[lx + 1];
      if ly + 1 < |s| {
        assert s[ly] <= s[ly + 1];
        assert s[ly] <= Interpolate(s, y);
      } else {
        assert Interpolate(s, y) == s[ly];
      }
    }
  }

  /** A larger percentile never yields a smaller value. */
  lemma PercentileMonotone(s: seq<real>, p: real, q: real)
    requires |s| > 0 && 0.0 <= p <= q <= 100.0 && Ascending(s)
    ensures PercentileOfSorted(s, p) <= PercentileOfSorted(s, q)
  {
    PositionMonotone(|s|, p, q);
    InterpolateMonotone(s, Position(|s|, p), Position(|s|, q));
  }

  /** `x` is a smallest element of `vals`. */
  predicate IsMinOf(x: real, vals: seq<real>) {
    x in vals && forall y :: y in vals ==> x <= y
  }

  /** `x` is a largest element of `vals`. */
  predicate IsMaxOf(x: real, vals: seq<real>) {
    x in vals && forall y :: y in vals ==> y <= x
  }

  /** `np.percentile(vals, p)`: the linear percentile of the sorted values;
      the 0th is the minimum, the 100th the maximum, and every percentile
      lies between them. */
  function Percentile(vals: seq<real>, p: real): (r: real)
    requires |vals| > 0 && 0.0 <= p <= 100.0
    ensures r == PercentileOfSorted(SortAscending(vals), p)
    ensures forall x :: IsMinOf(x, vals) ==> x <= r
    ensures forall x :: IsMaxOf(x, vals) ==> r <= x
    ensures p == 0.0 ==> IsMinOf(r, vals)
    ensures p == 100.0 ==> IsMaxOf(r, vals)
  {
    var s := SortAscending(vals);
    var r := PercentileOfSorted(s, p);
    SortedEndsInside(vals, s);
    SortedEndsAreExtremes(vals, s);
    r
  }

  /** The ends of a sorted copy are the minimum and the maximum of the
      original. */
  lemma SortedEndsAreExtremes(vals: seq<real>, s: seq<real>)
    requires |s| == |vals| > 0 && multiset(s) == multiset(vals) && Ascending(s)
    ensures IsMinOf(s[0], vals) && IsMaxOf(s[|s| - 1], vals)
  {
    SortedEndsInside(vals, s);
    forall y | y in vals
      ensures s[0] <= y <= s[|s| - 1]
    {
      assert y in multiset(vals);
      assert y in multiset(s);
      var i :| 0 <= i < |s| && s[i] == y;
    }
  }

  /** The ends of a sorted copy are elements of the original. */
  lemma SortedEndsInside(vals: seq<real>, s: seq<real>)
    requires |s| == |vals| > 0 && multiset(s) == multiset(vals)
    ensures s[0] in vals && s[|s| - 1] in vals
  {
    assert s[0] in multiset(s);
    assert s[|s| - 1] in multiset(s);
  }

  /** The level for one volatility given the 33rd and 66th percentiles. */
  function VolatilityRisk(vol: real, p33: real, p66: real): (r: Risk)
    ensures r == Low <==> vol <= p33
    ensures r == Medium <==> p33 < vol <= p66
    ensures r == High <==> p33 < vol && p66 < vol
  {
    if vol <= p33 then Low
    else if vol <= p66 then Medium
    else High
  }

  /** The rolling deviations of the recommendations, in order. */
  function Volatilities(items: seq<Recommendation>): (v: seq<real>)
    ensures |v| == |items|
    ensures forall i :: 0 <= i < |items| ==> v[i] == items[i].rollingStd
  {
    seq(|items|, i requires 0 <= i < |items| => items[i].rollingStd)
  }

  /** Labels every recommendation Low, Medium or High by where its volatility
      falls against the 33rd and 66th percentiles of all volatilities. An
      empty list is returned as it is. */
  function ApplyRelativeRisk(items: seq<Recommendation>): (r: seq<Recommendation>)
    ensures |items| == 0 ==> r == items
    ensures |r| == |items|
    ensures forall i :: 0 <= i < |items| ==>
      r[i].riskLevel.Some? && r[i] == items[i].(riskLevel := r[i].riskLevel)
    ensures |items| > 0 ==> forall i :: 0 <= i < |items| ==>
      r[i].riskLevel == Some(VolatilityRisk(items[i].rollingStd,
        Percentile(Volatilities(items), 33.0), Percentile(Volatilities(items), 66.0)))
  {
    if |items| == 0 then items
    else
      var vols := Volatilities(items);
      var p33 := Percentile(vols, 33.0);
      var p66 := Percentile(vols, 66.0);
      seq(|items|, i requires 0 <= i < |items| =>
        items[i].(riskLevel := Some(VolatilityRisk(items[i].rollingStd, p33, p66))))
  }

  /** The 33rd percentile never exceeds the 66th. */
  lemma ThresholdsOrdered(items: seq<Recommendation>)
    requires |items| > 0
    ensures Percentile(Volatilities(items), 33.0) <= Percentile(Volatilities(items), 66.0)
  {
    var s := SortAscending(Volatilities(items));
    PercentileMonotone(s, 33.0, 66.0);
  }

  /** Relative risk is monotone in volatility: a more volatile item is never
      labelled lower than a less volatile one. */
  lemma RelativeRiskMonotone(items: seq<Recommendation>, i: nat, j: nat)
    requires i < |items| && j < |items|
    requires items[i].rollingStd <= items[j].rollingStd
    ensures ApplyRelativeRisk(items)[j].riskLevel.value.Priority()
      <= ApplyRelativeRisk(items)[i].riskLevel.value.Priority()
  {
    ThresholdsOrdered(items);
  }

  /** The least volatile item is always labelled Low. */
  lemma LeastVolatileIsLow(items: seq<Recommendation>, i: nat)
    requires i < |items|
    requires forall j :: 0 <= j < |items| ==> items[i].rollingStd <= items[j].rollingStd
    ensures ApplyRelativeRisk(items)[i].riskLevel == Some(Low)
  {
    var vols := Volatilities(items);
    assert IsMinOf(vols[i], vols);
  }
}

=== FILE: market_intelligence.dfy ===
/** Market intelligence (backend/app/services/market_intelligence_service.py):
    turns each precomputed market-summary row into a plain-language insight
    and lists the insights most urgent first. The summary table is passed
    in; an empty table stands for a missing file. */
module MarketIntelligence {

  import opened Optional
  import opened Text
  import opened Seqs
  import opened Sorting
  import opened RiskLevels

  /** One row of the market summary table. A `None` field is a column the
      table does not have, for which the service substitutes a default. */
  datatype MarketRow = MarketRow(
    market: string,
    pressureIndex: Option<real>,
    avgWeeklyDemand: Option<real>,
    demandVolatility: Option<real>,
    inventoryStrategy: Option<string>)

  /** The business-facing insight for one market. */
  datatype MarketInsight = MarketInsight(
    market: string,
    attention: Risk,
    explanation: string,
    demandTrend: string,
    strategyRecommendation: string)

  /** The market names in table order; none for an empty table. */
  function GetMarkets(table: seq<MarketRow>): (names: seq<string>)
    ensures |names| == |table|
    ensures forall i :: 0 <= i < |table| ==> names[i] == table[i].market
  {
    seq(|table|, i requires 0 <= i < |table| => table[i].market)
  }

  /** High attention from a pressure index of 0.98, Medium from 0.93, Low below. */
  function AttentionLevel(mpi: real): (level: Risk)
    ensures level == High <==> mpi >= 0.98
    ensures level == Medium <==> 0.93 <= mpi < 0.98
    ensures level == Low <==> mpi < 0.93
  {
    if mpi >= 0.98 then High
    else if mpi >= 0.93 then Medium
    else Low
  }

  /** More pressure never lowers the attention level. */
  lemma AttentionMonotone(a: real, b: real)
    requires a <= b
    ensures AttentionLevel(b).Priority() <= AttentionLevel(a).Priority()
  {
  }

  /** The advice sentence that closes the explanation of each level. */
  function Advice(level: Risk): string
  {
    match level
    case High => "Prioritize inventory replenishment to prevent stockouts."
    case Medium => "Monitor closely and adjust orders if trends continue."
    case Low => "Standard inventory planning is sufficient."
  }

  /** What follows the market name in the explanation of each level: the
      demand-pressure assessment, then the level's advice. */
  function ExplanationTail(level: Risk): (tail: string)
    ensures EndsWith(tail, Advice(level))
  {
    var assessment :=
      match level
      case High => " is showing the highest relative demand pressure. "
      case Medium => " has moderate demand pressure. "
      case Low => " is operating within normal parameters. ";
    assessment + Advice(level)
  }

  /** The sentence explaining an attention level: the market name, then the
      level's tail, which closes with the level's advice. */
  function Explanation(market: string, level: Risk): (e: string)
    ensures StartsWith(e, market)
    ensures e[|market|..] == ExplanationTail(level)
    ensures EndsWith(e, Advice(level))
  {
    market + ExplanationTail(level)
  }

  /** The tails have three different lengths. Each length is proved on its
      own so that the comparison below stays cheap for the solver. */
  lemma TailLengthHigh()
    ensures |ExplanationTail(High)| == 106
  {
  }

  lemma TailLengthMedium()
    ensures |ExplanationTail(Medium)| == 84
  {
  }

  lemma TailLengthLow()
    ensures |ExplanationTail(Low)| == 82
  {
  }

  /** Different levels are never explained by the same sentence. */
  lemma ExplanationDistinguishesLevels(market: string, a: Risk, b: Risk)
    requires a != b
    ensures Explanation(market, a) != Explanation(market, b)
  {
    TailLengthHigh();
    TailLengthMedium();
    TailLengthLow();
    assert |Explanation(market, a)| != |Explanation(market, b)|;
  }

  /** Volatility above 100 takes precedence over average demand above 950. */
  function DemandTrend(avgDemand: real, volatility: real): (trend: string)
    ensures volatility > 100.0 ==> trend == "Variable demand patterns detected"
    ensures volatility <= 100.0 && avgDemand > 950.0 ==> trend == "Strong consistent demand"
    ensures volatility <= 100.0 && avgDemand <= 950.0 ==> trend == "Stable demand levels"
  {
    if volatility > 100.0 then "Variable demand patterns detected"
    else if avgDemand > 950.0 then "Strong consistent demand"
    else "Stable demand levels"
  }

  /** Whether the strategy mentions `word`, in any letter case. */
  predicate Mentions(strategy: string, word: string) {
    Contains(Lower(strategy), word)
  }

  /** The action suggested by a free-text strategy: the first of
      "optimize", "safety stock" and "reduce" it mentions decides; an empty
      strategy asks for a review. */
  function SimplifyStrategy(strategy: string): (action: string)
    ensures strategy == "" ==> action == "Review inventory levels"
    ensures strategy != "" && Mentions(strategy, "optimize") ==>
      action == "Focus on cost optimization"
    ensures strategy != "" && !Mentions(strategy, "optimize") && Mentions(strategy, "safety stock") ==>
      action == "Maintain safety stock buffers"
    ensures strategy != "" && !Mentions(strategy, "optimize") && !Mentions(strategy, "safety stock")
              && Mentions(strategy, "reduce") ==>
      action == "Consider reducing safety stock"
    ensures strategy != "" && !Mentions(strategy, "optimize") && !Mentions(strategy, "safety stock")
              && !Mentions(strategy, "reduce") ==>
      action == "Continue current approach"
  {
    if strategy == "" then "Review inventory levels"
    else if Mentions(strategy, "optimize") then "Focus on cost optimization"
    else if Mentions(strategy, "safety stock") then "Maintain safety stock buffers"
    else if Mentions(strategy, "reduce") then "Consider reducing safety stock"
    else "Continue current approach"
  }

  /** Letter case never changes the suggested action. */
  lemma SimplifyIgnoresCase(strategy: string)
    ensures SimplifyStrategy(Lower(strategy)) == SimplifyStrategy(strategy)
  {
    LowerIdempotent(strategy);
  }

  /** The insight of one row, with the service's defaults for absent
      columns: index 0.5, demand 0, volatility 0, empty strategy. */
  function TransformToInsight(row: MarketRow): (insight: MarketInsight)
    ensures insight.market == row.market
    ensures insight.attention == AttentionLevel(row.pressureIndex.GetOr(0.5))
    ensures row.pressureIndex.None? ==> insight.attention == Low
    ensures insight.explanation == Explanation(row.market, insight.attention)
    ensures insight.demandTrend == DemandTrend(row.avgWeeklyDemand.GetOr(0.0), row.demandVolatility.GetOr(0.0))
    ensures row.avgWeeklyDemand.None? && row.demandVolatility.None? ==>
      insight.demandTrend == "Stable demand levels"
    ensures insight.strategyRecommendation == SimplifyStrategy(row.inventoryStrategy.GetOr(""))
  {
    var level := AttentionLevel(row.pressureIndex.GetOr(0.5));
    MarketInsight(row.market, level, Explanation(row.market, level),
      DemandTrend(row.avgWeeklyDemand.GetOr(0.0), row.demandVolatility.GetOr(0.0)),
      SimplifyStrategy(row.inventoryStrategy.GetOr("")))
  }

  /** A missing or empty filter, or exactly "all", keeps every market; the
      test for "all" is case-sensitive, unlike the match itself. */
  predicate KeepsAllMarkets(market: Option<string>) {
    market.None? || market.value == "" || market.value == "all"
  }

  /** The rows a market filter selects, in table order. */
  function SelectMarkets(table: seq<MarketRow>, market: Option<string>): (rows: seq<MarketRow>)
    ensures KeepsAllMarkets(market) ==> rows == table
    ensures !KeepsAllMarkets(market) ==>
      forall row :: row in rows <==> row in table && EqualsIgnoringCase(row.market, market.value)
    ensures !KeepsAllMarkets(market) ==>
      forall row :: row in table ==>
        multiset(rows)[row] == if EqualsIgnoringCase(row.market, market.value) then multiset(table)[row] else 0
  {
    if KeepsAllMarkets(market) then table
    else Filter(table, (row: MarketRow) => EqualsIgnoringCase(row.market, market.value))
  }

  /** Appending a row to the table appends it to the selection exactly when
      the filter keeps it: the selection keeps the table order. */
  lemma SelectMarketsSnoc(table: seq<MarketRow>, row: MarketRow, market: Option<string>)
    ensures SelectMarkets(table + [row], market) ==
      SelectMarkets(table, market)
        + (if KeepsAllMarkets(market) || EqualsIgnoringCase(row.market, market.value) then [row] else [])
  {
    if !KeepsAllMarkets(market) {
      FilterSnoc(table, row, (r: MarketRow) => EqualsIgnoringCase(r.market, market.value));
    }
  }

  /** The insights of rows, in row order. */
  function Transformed(rows: seq<MarketRow>): (insights: seq<MarketInsight>)
    ensures |insights| == |rows|
    ensures forall i :: 0 <= i < |rows| ==> insights[i] == TransformToInsight(rows[i])
  {
    seq(|rows|, i requires 0 <= i < |rows| => TransformToInsight(rows[i]))
  }

  /** Listing order of insights: by attention priority alone. */
  function AttentionBefore(a: MarketInsight, b: MarketInsight): bool {
    a.attention.Priority() < b.attention.Priority()
  }

  lemma AttentionOrderIsStrictWeak()
    ensures StrictWeakOrder(AttentionBefore)
  {
  }

  function AtLevel(level: Risk): MarketInsight -> bool {
    (m: MarketInsight) => m.attention == level
  }

  /** Inserting ahead of elements that do not precede it puts `x` first. */
  lemma InsertAtFront(x: MarketInsight, b: seq<MarketInsight>)
    requires |b| == 0 || !AttentionBefore(b[0], x)
    ensures Insert(x, b, AttentionBefore) == [x] + b
  {
  }

  /** Inserting into grouped insights puts `x` at the end of its own group. */
  lemma InsertIntoGroups(x: MarketInsight, h: seq<MarketInsight>, m: seq<MarketInsight>, l: seq<MarketInsight>)
    requires forall y :: y in h ==> y.attention == High
    requires forall y :: y in m ==> y.attention == Medium
    requires forall y :: y in l ==> y.attention == Low
    ensures x.attention == High ==> Insert(x, h + m + l, AttentionBefore) == [x] + h + m + l
    ensures x.attention == Medium ==> Insert(x, h + m + l, AttentionBefore) == h + ([x] + m) + l
    ensures x.attention == Low ==> Insert(x, h + m + l, AttentionBefore) == h + m + ([x] + l)
  {
    assert h + m + l == h + (m + l);
    match x.attention
    case High =>
      if |h| > 0 {
        assert h[0] in h;
      } else if |m| > 0 {
        assert m[0] in m;
      } else if |l| > 0 {
        assert l[0] in l;
      }
      InsertAtFront(x, h + m + l);
    case Medium =>
      InsertAfterPrefix(x, h, m + l, AttentionBefore);
      if |m| > 0 {
        assert m[0] in m;
      } else if |l| > 0 {
        assert l[0] in l;
      }
      InsertAtFront(x, m + l);
      assert h + ([x] + m) + l == h + ([x] + (m + l));
    case Low =>
      InsertAfterPrefix(x, h + m, l, AttentionBefore);
      if |l| > 0 {
        assert l[0] in l;
      }
      InsertAtFront(x, l);
  }

  /** The sort is stable: it lists the High insights, then the Medium ones,
      then the Low ones, each group in its input order. */
  lemma {:induction false} SortGroupsByLevel(s: seq<MarketInsight>)
    ensures SortBy(s, AttentionBefore)
      == Filter(s, AtLevel(High)) + Filter(s, AtLevel(Medium)) + Filter(s, AtLevel(Low))
  {
    if |s| > 0 {
      var x, t := s[0], s[1..];
      SortGroupsByLevel(t);
      var h, m, l := Filter(t, AtLevel(High)), Filter(t, AtLevel(Medium)), Filter(t, AtLevel(Low));
      assert SortBy(s, AttentionBefore) == Insert(x, h + m + l, AttentionBefore);
      InsertIntoGroups(x, h, m, l);
      assert Filter(s, AtLevel(High)) == if x.attention == High then [x] + h else h;
      assert Filter(s, AtLevel(Medium)) == if x.attention == Medium then [x] + m else m;
      assert Filter(s, AtLevel(Low)) == if x.attention == Low then [x] + l else l;
    }
  }

  /** GET /markets/summary: one insight per selected row, High first, then
      Medium, then Low, keeping table order within a level. */
  function GetMarketSummary(table: seq<MarketRow>, market: Option<string>): (r: seq<MarketInsight>)
    ensures |table| == 0 ==> r == []
    ensures |r| == |SelectMarkets(table, market)|
    ensures KeepsAllMarkets(market) ==> |r| == |table|
    ensures multiset(r) == multiset(Transformed(SelectMarkets(table, market)))
    ensures SortedBy(r, AttentionBefore)
    ensures var insights := Transformed(SelectMarkets(table, market));
      r == Filter(insights, AtLevel(High)) + Filter(insights, AtLevel(Medium))
        + Filter(insights, AtLevel(Low))
  {
    if |table| == 0 then []
    else
      var insights := Transformed(SelectMarkets(table, market));
      AttentionOrderIsStrictWeak();
      SortBySorted(insights, AttentionBefore);
      SortGroupsByLevel(insights);
      SortBy(insights, AttentionBefore)
  }

  /** The market names of insights, in order. */
  function MarketsOf(insights: seq<MarketInsight>): (names: seq<string>)
    ensures |names| == |insights|
    ensures forall i :: 0 <= i < |insights| ==> names[i] == insights[i].market
  {
    seq(|insights|, i requires 0 <= i < |insights| => insights[i].market)
  }

  /** Unfiltered, the summary covers every market of the table exactly once. */
  lemma SummaryCoversMarkets(table: seq<MarketRow>)
    ensures multiset(MarketsOf(GetMarketSummary(table, None))) == multiset(GetMarkets(table))
  {
    var r := GetMarketSummary(table, None);
    var ts := Transformed(table);
    assert multiset(r) == multiset(ts);
    MarketsOfPermutation(r, ts);
    assert MarketsOf(ts) == GetMarkets(table);
  }

  lemma MarketsOfAppend(a: seq<MarketInsight>, b: seq<MarketInsight>)
    ensures MarketsOf(a + b) == MarketsOf(a) + MarketsOf(b)
  {
  }

  /** Permuted insights have permuted market names. */
  lemma {:induction false} MarketsOfPermutation(a: seq<MarketInsight>, b: seq<MarketInsight>)
    requires multiset(a) == multiset(b)
    ensures multiset(MarketsOf(a)) == multiset(MarketsOf(b))
    decreases |a|
  {
    if |a| > 0 {
      var x := a[0];
      assert x in multiset(b);
      var k :| 0 <= k < |b| && b[k] == x;
      var b1, b2 := b[..k], b[k + 1..];
      assert b == b1 + [x] + b2;
      assert a == [x] + a[1..];
      assert multiset(b) == multiset(b1) + multiset{x} + multiset(b2);
      assert multiset(a) == multiset{x} + multiset(a[1..]);
      assert multiset(b1 + b2) == multiset(b1) + multiset(b2);
      assert multiset(a[1..]) == multiset(a) - multiset{x};
      assert multiset(b1 + b2) == multiset(b) - multiset{x};
      MarketsOfPermutation(a[1..], b1 + b2);
      MarketsOfAppend([x], a[1..]);
      MarketsOfAppend(b1 + [x], b2);
      MarketsOfAppend(b1, [x]);
      MarketsOfAppend(b1, b2);
    } else {
      assert b == [];
    }
  }
}

=== FILE: numeric.dfy ===
/** Exact rounding helpers.

    The dashboard mixes JavaScript's `Math.round` / `Math.ceil` with Python's
    `round()` and `int()`. Each is defined once here over exact `real`
    arithmetic, so that the two conventions for halves are explicit instead of
    being inherited from binary floating point. */
module Numeric {

  /** True when `x` has no fractional part. */
  predicate IsIntegral(x: real) {
    x.Floor as real == x
  }

  /** The largest integer not above `x`. */
  function Floor(x: real): (r: int)
    ensures r as real <= x < r as real + 1.0
  {
    x.Floor
  }

  /** JavaScript `Math.ceil`: the smallest integer not below `x`. */
  function Ceil(x: real): (r: int)
    ensures x <= r as real < x + 1.0
  {
    -Floor(-x)
  }

  /** JavaScript `Math.round`: nearest integer, halves go towards +infinity. */
  function RoundHalfUp(x: real): (r: int)
    ensures x - 0.5 < r as real <= x + 0.5
  {
    Floor(x + 0.5)
  }

  /** Python `round(x)`: nearest integer, halves go to the even neighbour. */
  function RoundHalfEven(x: real): (r: int)
    ensures x - 0.5 <= r as real <= x + 0.5
    ensures r as real == x - 0.5 || r as real == x + 0.5 ==> r % 2 == 0
  {
    var f := Floor(x);
    var d := x - f as real;
    if d < 0.5 then f
    else if d > 0.5 then f + 1
    else if f % 2 == 0 then f
    else f + 1
  }

  /** Python `int(x)` on a float: the fraction is dropped, rounding towards zero. */
  function Trunc(x: real): (r: int)
    ensures 0.0 <= x ==> 0 <= r && x - 1.0 < r as real <= x
    ensures x < 0.0 ==> r <= 0 && x <= r as real < x + 1.0
    ensures IsIntegral(x) ==> r as real == x
  {
    if x >= 0.0 then Floor(x)
    else
      assert IsIntegral(x) ==> -x == (-x.Floor) as real;
      -Floor(-x)
  }

  /** Ten to the power `n`. */
  function Pow10(n: nat): (r: nat)
    ensures r >= 1
  {
    if n == 0 then 1 else 10 * Pow10(n - 1)
  }

  /** The value of one in the `digits`-th decimal place, inverted: 10^digits
      as a real. */
  function DecimalScale(digits: nat): (scale: real)
    ensures scale >= 1.0
  {
    Pow10(digits) as real
  }

  /** Python `round(x, digits)` with exact decimal arithmetic: the result is
      a whole number of units of the `digits`-th decimal place, and that
      number is the half-to-even rounding of `x` in those units. */
  function RoundTo(x: real, digits: nat): (r: real)
    ensures r * DecimalScale(digits) == RoundHalfEven(x * DecimalScale(digits)) as real
    ensures x - 0.5 / DecimalScale(digits) <= r <= x + 0.5 / DecimalScale(digits)
  {
    var n := RoundHalfEven(x * DecimalScale(digits));
    ScaledBound(x, DecimalScale(digits), n as real);
    ScaledBack(n, DecimalScale(digits));
    n as real / DecimalScale(digits)
  }

  /** Dividing a whole number by a non-zero scale and multiplying back
      returns it. */
  lemma ScaledBack(n: int, scale: real)
    requires scale != 0.0
    ensures (n as real / scale) * scale == n as real
  {
  }

  /** Dividing a value within one half of `x * scale` by `scale` lands within
      one half of a unit in the last place of `x`. */
  lemma ScaledBound(x: real, scale: real, n: real)
    requires scale >= 1.0
    requires x * scale - 0.5 <= n <= x * scale + 0.5
    ensures x - 0.5 / scale <= n / scale <= x + 0.5 / scale
  {
    assert n / scale - x == (n - x * scale) / scale;
    assert 0.5 / scale - (n / scale - x) == (0.5 - (n - x * scale)) / scale;
    assert (n / scale - x) + 0.5 / scale == ((n - x * scale) + 0.5) / scale;
  }

  /** Dividing a product by one of its non-zero factors leaves the other. */
  lemma DivideOut(a: real, b: real, k: real)
    requires b != 0.0 && a == b * k
    ensures a / b == k
  {
  }

  /** The product of two non-negative numbers is non-negative. */
  lemma MulNonNegative(x: real, y: real)
    requires x >= 0.0 && y >= 0.0
    ensures x * y >= 0.0
  {
  }

  function Max(a: real, b: real): (r: real)
    ensures r >= a && r >= b && (r == a || r == b)
  {
    if a >= b then a else b
  }

  function Min(a: real, b: real): (r: real)
    ensures r <= a && r <= b && (r == a || r == b)
  {
    if a <= b then a else b
  }

  /** Away from halves the two rounding conventions agree. */
  lemma RoundingModesAgreeOffHalf(x: real)
    requires x - Floor(x) as real != 0.5
    ensures RoundHalfUp(x) == RoundHalfEven(x)
  {
  }

  /** At a half they can differ: JavaScript rounds 2.5 up to 3, Python to 2. */
  lemma RoundingModesDifferAtHalf()
    ensures RoundHalfUp(2.5) == 3 && RoundHalfEven(2.5) == 2
  {
  }

  /** Every rounding helper leaves an integral value where it is. */
  lemma RoundingFixesIntegers(x: real)
    requires IsIntegral(x)
    ensures Ceil(x) as real == x && RoundHalfUp(x) as real == x
    ensures RoundHalfEven(x) as real == x && Trunc(x) as real == x
  {
    var n := Floor(x);
    assert x == n as real;
    assert Floor(-x) == -n;
    assert Floor(x + 0.5) == n;
  }

  /** Scaling by a non-negative factor preserves order. */
  lemma MulMonotone(q: real, m1: real, m2: real)
    requires q >= 0.0 && m1 <= m2
    ensures q * m1 <= q * m2
  {
    MulNonNegative(q, m2 - m1);
    assert q * (m2 - m1) == q * m2 - q * m1;
  }

  /** Multiplying by a positive number keeps a strict comparison. */
  lemma ScaleByPositive(a: real, c: real, t: real)
    requires t > 0.0
    ensures a > c <==> a * t > c * t
  {
    assert a * t - c * t == (a - c) * t;
    if a > c {
      assert (a - c) * t > 0.0;
    } else {
      MulNonNegative(c - a, t);
      assert (c - a) * t == c * t - a * t;
    }
  }

  /** Of two whole numbers less than one apart, the first is not larger. */
  lemma WholeOrder(x: real, y: real)
    requires IsIntegral(x) && IsIntegral(y) && x < y + 1.0
    ensures x <= y
  {
    var n, m := x.Floor, y.Floor;
    assert n as real < (m + 1) as real;
    assert n <= m;
  }

  /** Whole numbers are closed under addition. */
  lemma IntegralSum(a: real, b: real)
    requires IsIntegral(a) && IsIntegral(b)
    ensures IsIntegral(a + b)
  {
    var n, m := a.Floor, b.Floor;
    assert a + b == (n + m) as real;
  }

  /** Each rounding helper returns an integral value. */
  lemma CeilIsIntegral(x: real)
    ensures IsIntegral(Ceil(x) as real)
  {
  }

  lemma CeilMonotone(x: real, y: real)
    requires x <= y
    ensures Ceil(x) <= Ceil(y)
  {
  }

  lemma TruncMonotone(x: real, y: real)
    requires x <= y
    ensures Trunc(x) <= Trunc(y)
  {
  }
}

=== FILE: optional.dfy ===
/** Absent values and failing calls.

    The Python services signal "no value" with `None` and the JavaScript
    client with `undefined`; HTTP handlers fail by raising. Both are modelled
    with the two datatypes below instead of partial functions. */
module Optional {

  /** A value that may be missing. */
  datatype Option<+T> = None | Some(value: T) {

    /** The carried value, or `default` when there is none. */
    function GetOr(default: T): T {
      match this
      case Some(v) => v
      case None => default
    }
  }

  /** The outcome of a call that can fail with an error of type `E`. */
  datatype Result<+T, +E> = Ok(value: T) | Err(error: E)
}

=== FILE: risk_levels.dfy ===
/** The three-level scale used for demand risk, cost strategy and market
    attention throughout the backend, and the priority it is listed by. */
module RiskLevels {

  import opened Optional

  datatype Risk = High | Medium | Low {

    /** The label as it appears in responses. */
    function Name(): string {
      match this
      case High => "High"
      case Medium => "Medium"
      case Low => "Low"
    }

    /** Listing priority: High first (0), Low last (2). */
    function Priority(): nat {
      match this
      case High => 0
      case Medium => 1
      case Low => 2
    }
  }

  /** Reads a label back; anything other than the three names is unknown. */
  function Parse(s: string): (r: Option<Risk>)
    ensures r.Some? ==> r.value.Name() == s
  {
    if s == "High" then Some(High)
    else if s == "Medium" then Some(Medium)
    else if s == "Low" then Some(Low)
    else None
  }

  /** Labels and priorities are both one-to-one, so each determines the level. */
  lemma NameAndPriorityInjective(a: Risk, b: Risk)
    ensures a.Name() == b.Name() <==> a == b
    ensures a.Priority() == b.Priority() <==> a == b
    ensures Parse(a.Name()) == Some(a)
  {
  }

  /** How many entries of `levels` equal `k` (pandas `value_counts().get(k, 0)`). */
  function CountLevel(levels: seq<Risk>, k: Risk): (n: nat)
    ensures n <= |levels|
  {
    if |levels| == 0 then 0
    else (if levels[0] == k then 1 else 0) + CountLevel(levels[1..], k)
  }

  /** Every entry carries exactly one of the three levels, so the three
      counts add up to the length. */
  lemma {:induction false} CountsPartition(levels: seq<Risk>)
    ensures CountLevel(levels, High) + CountLevel(levels, Medium) + CountLevel(levels, Low) == |levels|
  {
    if |levels| > 0 {
      CountsPartition(levels[1..]);
    }
  }

  /** A level is counted for the full length exactly when every entry has it. */
  lemma {:induction false} CountFullIff(levels: seq<Risk>, k: Risk)
    ensures CountLevel(levels, k) == |levels| <==> forall i :: 0 <= i < |levels| ==> levels[i] == k
  {
    if |levels| > 0 {
      CountFullIff(levels[1..], k);
      assert forall i :: 1 <= i < |levels| ==> levels[i] == levels[1..][i - 1];
    }
  }
}

=== FILE: scenario_engine.dfy ===
/** The browser's what-if scenario (backend/app/static/js/app.js): the
    rows of the last plan response are rescaled by a demand multiplier,
    and the snapshot card totals the order quantities under three outlooks.
    Numbers are exact reals; JavaScript's `Math.round` is half-up and
    `Math.ceil` rounds towards positive infinity. */
module ScenarioEngine {

  import opened Optional
  import opened Numeric
  import opened Seqs
  import opened RiskLevels
  import ScenarioService
  import InventoryPlanning

  /** A recommendation row as the browser holds it. `None` marks a field
      the JSON does not carry, or a forecast that is not a number (which
      stays not-a-number through arithmetic). */
  datatype ClientRow = ClientRow(
    productId: string,
    productName: Option<string>,
    category: string,
    market: string,
    forecastUnits: Option<real>,
    recommendedOrderQty: real,
    safetyBufferPct: Option<real>,
    riskLevel: Option<string>,
    demandRisk: Option<string>)

  /** The browser's copy of one entry of the plan response. */
  function FromPlanItem(item: InventoryPlanning.PlanItem): ClientRow {
    ClientRow(item.productId, Some(item.productName), item.category, item.market,
      Some(item.forecastUnits), item.recommendedOrderQty as real,
      Some(item.safetyBufferPct), Some(item.riskLevel.Name()), None)
  }

  function FromPlanItems(items: seq<InventoryPlanning.PlanItem>): (rows: seq<ClientRow>)
    ensures |rows| == |items|
    ensures forall i :: 0 <= i < |items| ==> rows[i] == FromPlanItem(items[i])
  {
    seq(|items|, i requires 0 <= i < |items| => FromPlanItem(items[i]))
  }

  /** One row under a multiplier: the forecast rounded half-up, the order
      quantity rounded up, every other field as it was. */
  function ScaleRow(row: ClientRow, multiplier: real): (scaled: ClientRow)
    ensures scaled == row.(forecastUnits := scaled.forecastUnits,
                           recommendedOrderQty := scaled.recommendedOrderQty)
    ensures scaled.forecastUnits.Some? <==> row.forecastUnits.Some?
    ensures row.forecastUnits.Some? ==>
      var f := row.forecastUnits.value * multiplier;
      IsIntegral(scaled.forecastUnits.value) && f - 0.5 < scaled.forecastUnits.value <= f + 0.5
    ensures IsIntegral(scaled.recommendedOrderQty)
    ensures row.recommendedOrderQty * multiplier <= scaled.recommendedOrderQty
              < row.recommendedOrderQty * multiplier + 1.0
  {
    var forecast := match row.forecastUnits
      case Some(f) => Some(RoundHalfUp(f * multiplier) as real)
      case None => None;
    CeilIsIntegral(row.recommendedOrderQty * multiplier);
    row.(forecastUnits := forecast,
         recommendedOrderQty := Ceil(row.recommendedOrderQty * multiplier) as real)
  }

  /** Every row of the original plan under a multiplier, in order. The
      original rows are always the input, so successive multipliers do not
      compound. */
  function ApplyScenario(original: seq<ClientRow>, multiplier: real): (updated: seq<ClientRow>)
    ensures |updated| == |original|
    ensures forall i :: 0 <= i < |original| ==>
      updated[i] == original[i].(forecastUnits := updated[i].forecastUnits,
                                 recommendedOrderQty := updated[i].recommendedOrderQty)
    ensures forall i :: 0 <= i < |original| ==>
      && IsIntegral(updated[i].recommendedOrderQty)
      && original[i].recommendedOrderQty * multiplier <= updated[i].recommendedOrderQty
      && updated[i].recommendedOrderQty < original[i].recommendedOrderQty * multiplier + 1.0
    ensures forall i :: 0 <= i < |original| ==>
      (updated[i].forecastUnits.Some? <==> original[i].forecastUnits.Some?)
    ensures forall i :: 0 <= i < |original| ==> updated[i] == ScaleRow(original[i], multiplier)
  {
    seq(|original|, i requires 0 <= i < |original| => ScaleRow(original[i], multiplier))
  }

  /** Whole-number quantities, as the plan response carries them. */
  predicate WholeQuantities(row: ClientRow) {
    && (row.forecastUnits.Some? ==> IsIntegral(row.forecastUnits.value))
    && IsIntegral(row.recommendedOrderQty)
  }

  /** The base case leaves rows with whole quantities exactly as they were. */
  lemma BaseCaseIsIdentity(rows: seq<ClientRow>)
    requires forall i :: 0 <= i < |rows| ==> WholeQuantities(rows[i])
    ensures ApplyScenario(rows, 1.0) == rows
  {
    var updated := ApplyScenario(rows, 1.0);
    forall i | 0 <= i < |rows|
      ensures updated[i] == rows[i]
    {
      RoundingFixesIntegers(rows[i].recommendedOrderQty);
      if rows[i].forecastUnits.Some? {
        RoundingFixesIntegers(rows[i].forecastUnits.value);
      }
    }
  }

  /** The rows the plan endpoint sends are fixed by the base case. */
  lemma BaseCaseKeepsPlanRows(loaded: seq<InventoryPlanning.LoadedRow>, market: Option<string>,
                              category: Option<string>, limit: int)
    requires 1 <= limit <= 100
    ensures var plan := InventoryPlanning.GetInventoryPlan(loaded, market, category, limit);
      plan.Ok? && ApplyScenario(FromPlanItems(plan.value.recommendations), 1.0)
                    == FromPlanItems(plan.value.recommendations)
  {
    var plan := InventoryPlanning.GetInventoryPlan(loaded, market, category, limit);
    var items := plan.value.recommendations;
    var rows := FromPlanItems(items);
    forall i | 0 <= i < |rows|
      ensures WholeQuantities(rows[i])
    {
      assert items[i] in items;
      var x :| x in InventoryPlanning.FilterRows(loaded, market, category)
               && items[i] == InventoryPlanning.ToPlanItem(x);
    }
    BaseCaseIsIdentity(rows);
  }

  /** A larger multiplier never orders less of a non-negative quantity. */
  lemma OrderQtyMonotone(row: ClientRow, m1: real, m2: real)
    requires row.recommendedOrderQty >= 0.0 && m1 <= m2
    ensures ScaleRow(row, m1).recommendedOrderQty <= ScaleRow(row, m2).recommendedOrderQty
  {
    MulMonotone(row.recommendedOrderQty, m1, m2);
    WholeOrder(ScaleRow(row, m1).recommendedOrderQty, ScaleRow(row, m2).recommendedOrderQty);
  }

  /** The browser's order quantity is the server simulation's adjusted
      forecast of that quantity, rounded up. */
  lemma ClientMatchesSimulation(row: ClientRow, multiplier: real)
    ensures var sim := ScenarioService.Simulate(row.recommendedOrderQty, multiplier);
      && sim.adjustedForecast <= ScaleRow(row, multiplier).recommendedOrderQty
      && ScaleRow(row, multiplier).recommendedOrderQty < sim.adjustedForecast + 1.0
  {
  }

  /** Low below 0.8, exactly 1.0 the base case, High above 1.2, anything
      else an alternative. */
  function ScenarioDescription(value: real): (text: string)
    ensures text == "Low demand scenario (risk of overstock)" <==> value < 0.8
    ensures text == "Base case (current forecast)" <==> value == 1.0
    ensures text == "High demand scenario (risk of stockout)" <==> value > 1.2
    ensures text == "Alternative scenario" <==> 0.8 <= value <= 1.2 && value != 1.0
  {
    if value < 0.8 then "Low demand scenario (risk of overstock)"
    else if value == 1.0 then "Base case (current forecast)"
    else if value > 1.2 then "High demand scenario (risk of stockout)"
    else "Alternative scenario"
  }

  /** The descriptions follow the multiplier: a smaller multiplier is never
      described as higher demand than a larger one. */
  lemma DescriptionBandsOrdered(a: real, b: real)
    requires a <= b
    ensures ScenarioDescription(b) == "Low demand scenario (risk of overstock)" ==>
      ScenarioDescription(a) == "Low demand scenario (risk of overstock)"
    ensures ScenarioDescription(a) == "High demand scenario (risk of stockout)" ==>
      ScenarioDescription(b) == "High demand scenario (risk of stockout)"
  {
  }

  /** The three totals of the snapshot card. */
  datatype Snapshot = Snapshot(conservative: int, base: real, aggressive: int)

  function OrderTotal(rows: seq<ClientRow>): real {
    SumOf(rows, (row: ClientRow) => row.recommendedOrderQty)
  }

  /** The snapshot of the displayed rows; none (the fallback card) when the
      rows are missing or empty. */
  function ScenarioSnapshot(data: Option<seq<ClientRow>>): (s: Option<Snapshot>)
    ensures s.None? <==> data.None? || |data.value| == 0
    ensures s.Some? ==> s.value.base == OrderTotal(data.value)
    ensures s.Some? ==>
      s.value.base * 0.7 <= s.value.conservative as real < s.value.base * 0.7 + 1.0
    ensures s.Some? ==>
      s.value.base * 1.3 <= s.value.aggressive as real < s.value.base * 1.3 + 1.0
  {
    if data.None? || |data.value| == 0 then None
    else
      var total := OrderTotal(data.value);
      Some(Snapshot(Ceil(total * 0.7), total, Ceil(total * 1.3)))
  }

  /** A total of whole quantities is whole. */
  lemma {:induction false} OrderTotalIntegral(rows: seq<ClientRow>)
    requires forall i :: 0 <= i < |rows| ==> IsIntegral(rows[i].recommendedOrderQty)
    ensures IsIntegral(OrderTotal(rows))
  {
    if |rows| > 0 {
      OrderTotalIntegral(rows[1..]);
      assert OrderTotal(rows) == rows[0].recommendedOrderQty + OrderTotal(rows[1..]);
      IntegralSum(rows[0].recommendedOrderQty, OrderTotal(rows[1..]));
    }
  }

  /** With whole, non-negative quantities the conservative total never
      exceeds the base and the aggressive total never falls below it. */
  lemma SnapshotBracketsBase(rows: seq<ClientRow>)
    requires |rows| > 0
    requires forall i :: 0 <= i < |rows| ==>
      IsIntegral(rows[i].recommendedOrderQty) && rows[i].recommendedOrderQty >= 0.0
    ensures var s := ScenarioSnapshot(Some(rows)).value;
      s.conservative as real <= s.base <= s.aggressive as real
  {
    var total := OrderTotal(rows);
    OrderTotalIntegral(rows);
    SumOfNonNegative(rows, (row: ClientRow) => row.recommendedOrderQty);
    CeilMonotone(total * 0.7, total);
    RoundingFixesIntegers(total);
  }

  /** The snapshot after any non-negative multiplier brackets its base. */
  lemma ScenarioSnapshotBrackets(original: seq<ClientRow>, multiplier: real)
    requires |original| > 0 && multiplier >= 0.0
    requires forall i :: 0 <= i < |original| ==> original[i].recommendedOrderQty >= 0.0
    ensures var s := ScenarioSnapshot(Some(ApplyScenario(original, multiplier))).value;
      s.conservative as real <= s.base <= s.aggressive as real
  {
    var updated := ApplyScenario(original, multiplier);
    forall i | 0 <= i < |updated|
      ensures updated[i].recommendedOrderQty >= 0.0
    {
      MulNonNegative(original[i].recommendedOrderQty, multiplier);
    }
    SnapshotBracketsBase(updated);
  }
}

=== FILE: scenario_service.dfy ===
/** Server-side what-if simulation of one forecast
    (backend/app/services/scenario_service.py). */
module ScenarioService {

  import Numeric

  datatype Simulation = Simulation(
    baseForecast: real,
    demandMultiplier: real,
    adjustedForecast: real,
    difference: real,
    percentChange: real)

  /** Scales the base forecast by the multiplier and reports the change,
      both absolute and as a percentage of the base (zero for a zero base,
      which Python treats as false). */
  function Simulate(baseForecast: real, demandMultiplier: real): (s: Simulation)
    ensures s.baseForecast == baseForecast && s.demandMultiplier == demandMultiplier
    ensures s.adjustedForecast == baseForecast * demandMultiplier
    ensures s.difference == s.adjustedForecast - baseForecast
    ensures baseForecast == 0.0 ==> s.percentChange == 0.0
    ensures baseForecast != 0.0 ==> s.percentChange == (demandMultiplier - 1.0) * 100.0
  {
    var adjusted := baseForecast * demandMultiplier;
    var pct := if baseForecast != 0.0 then (adjusted - baseForecast) / baseForecast * 100.0 else 0.0;
    assert baseForecast != 0.0 ==> pct == (demandMultiplier - 1.0) * 100.0 by {
      if baseForecast != 0.0 {
        Numeric.DivideOut(adjusted - baseForecast, baseForecast, demandMultiplier - 1.0);
      }
    }
    Simulation(baseForecast, demandMultiplier, adjusted, adjusted - baseForecast, pct)
  }

  /** A multiplier of one changes nothing. */
  lemma NeutralMultiplier(baseForecast: real)
    ensures Simulate(baseForecast, 1.0).difference == 0.0
    ensures Simulate(baseForecast, 1.0).percentChange == 0.0
    ensures Simulate(baseForecast, 1.0).adjustedForecast == baseForecast
  {
  }

  /** For a positive base the forecast grows exactly when the multiplier exceeds one. */
  lemma {:induction false} GrowthIffMultiplierAboveOne(baseForecast: real, demandMultiplier: real)
    requires baseForecast > 0.0
    ensures Simulate(baseForecast, demandMultiplier).difference > 0.0 <==> demandMultiplier > 1.0
  {
    var s := Simulate(baseForecast, demandMultiplier);
    assert s.difference == baseForecast * (demandMultiplier - 1.0);
  }
}

=== FILE: seqs.dfy ===
/** Sequence helpers shared by the services: filtering that keeps order,
    counting, and summing a numeric field. */
module Seqs {

  /** The elements of `s` that satisfy `keep`, in their original order
      (a pandas boolean mask or a list comprehension with a condition). */
  function Filter<T>(s: seq<T>, keep: T -> bool): (r: seq<T>)
    ensures |r| <= |s|
    ensures forall x :: x in r ==> x in s && keep(x)
    ensures forall x :: x in s && keep(x) ==> x in r
    ensures forall x :: x in s ==> multiset(r)[x] == if keep(x) then multiset(s)[x] else 0
  {
    if |s| == 0 then []
    else
      assert s == [s[0]] + s[1..];
      if keep(s[0]) then [s[0]] + Filter(s[1..], keep)
      else Filter(s[1..], keep)
  }

  /** Filtering a sequence extended by one element extends the filtered
      sequence by that element exactly when it is kept; with the empty case
      this pins down the order of the result. */
  lemma FilterSnoc<T>(s: seq<T>, x: T, keep: T -> bool)
    ensures Filter(s + [x], keep) == Filter(s, keep) + (if keep(x) then [x] else [])
  {
    FilterAppend(s, [x], keep);
    assert [x][1..] == [];
  }

  /** Filtering with a condition every element meets keeps the sequence whole. */
  lemma {:induction false} FilterAll<T>(s: seq<T>, keep: T -> bool)
    requires forall x :: x in s ==> keep(x)
    ensures Filter(s, keep) == s
  {
    if |s| > 0 {
      assert s[0] in s;
      assert forall x :: x in s[1..] ==> x in s;
      FilterAll(s[1..], keep);
      assert s == [s[0]] + s[1..];
    }
  }

  /** Filtering distributes over concatenation. */
  lemma {:induction false} FilterAppend<T>(a: seq<T>, b: seq<T>, keep: T -> bool)
    ensures Filter(a + b, keep) == Filter(a, keep) + Filter(b, keep)
  {
    if |a| > 0 {
      assert (a + b)[1..] == a[1..] + b;
      FilterAppend(a[1..], b, keep);
    } else {
      assert a + b == b;
    }
  }

  /** The number of elements of `s` that satisfy `p`. */
  function CountIf<T>(s: seq<T>, p: T -> bool): (n: nat)
    ensures n <= |s|
    ensures n == |Filter(s, p)|
  {
    if |s| == 0 then 0
    else (if p(s[0]) then 1 else 0) + CountIf(s[1..], p)
  }

  /** The sum of `f` over the elements of `s` (pandas `Series.sum`). */
  function SumOf<T>(s: seq<T>, f: T -> real): real
  {
    if |s| == 0 then 0.0 else f(s[0]) + SumOf(s[1..], f)
  }

  /** A sum of non-negative terms is non-negative. */
  lemma {:induction false} SumOfNonNegative<T>(s: seq<T>, f: T -> real)
    requires forall x :: x in s ==> f(x) >= 0.0
    ensures SumOf(s, f) >= 0.0
  {
    if |s| > 0 {
      assert s[0] in s;
      assert forall x :: x in s[1..] ==> x in s;
      SumOfNonNegative(s[1..], f);
    }
  }

  /** Summing over a concatenation adds the two sums. */
  lemma {:induction false} SumOfAppend<T>(a: seq<T>, b: seq<T>, f: T -> real)
    ensures SumOf(a + b, f) == SumOf(a, f) + SumOf(b, f)
  {
    if |a| > 0 {
      assert (a + b)[1..] == a[1..] + b;
      SumOfAppend(a[1..], b, f);
    } else {
      assert a + b == b;
    }
  }
}

=== FILE: sorting.dfy ===
/** A stable insertion sort over a caller-supplied ordering.

    `before(a, b)` holds when `a` must be listed ahead of `b`. Elements that
    neither precedes are equivalent, and the sort keeps equivalent elements
    in their input order, which is what Python's `list.sort` promises. */
module Sorting {

  /** `before` is a strict weak order: irreflexive, transitive, and its
      incomparability ("neither precedes") is transitive as well. */
  ghost predicate StrictWeakOrder<T(!new)>(before: (T, T) -> bool) {
    && (forall a :: !before(a, a))
    && (forall a, b, c :: before(a, b) && before(b, c) ==> before(a, c))
    && (forall a, b, c :: !before(a, b) && !before(b, c) ==> !before(a, c))
  }

  /** No element is preceded by one listed after it. */
  ghost predicate SortedBy<T>(s: seq<T>, before: (T, T) -> bool) {
    forall i, j :: 0 <= i < j < |s| ==> !before(s[j], s[i])
  }

  /** Puts `x` ahead of the first element of `s` that does not strictly precede it. */
  function Insert<T>(x: T, s: seq<T>, before: (T, T) -> bool): (r: seq<T>)
    ensures |r| == |s| + 1
    ensures multiset(r) == multiset(s) + multiset{x}
  {
    if |s| == 0 then [x]
    else if before(s[0], x) then
      assert s == [s[0]] + s[1..];
      [s[0]] + Insert(x, s[1..], before)
    else [x] + s
  }

  /** Stable insertion sort. */
  function SortBy<T>(s: seq<T>, before: (T, T) -> bool): (r: seq<T>)
    ensures |r| == |s|
    ensures multiset(r) == multiset(s)
  {
    if |s| == 0 then []
    else
      assert s == [s[0]] + s[1..];
      Insert(s[0], SortBy(s[1..], before), before)
  }

  /** Inserting into a sorted sequence keeps it sorted. */
  lemma {:induction false} InsertSorted<T(!new)>(x: T, s: seq<T>, before: (T, T) -> bool)
    requires StrictWeakOrder(before)
    requires SortedBy(s, before)
    ensures SortedBy(Insert(x, s, before), before)
  {
    if |s| > 0 {
      if before(s[0], x) {
        var t := s[1..];
        assert SortedBy(t, before);
        InsertSorted(x, t, before);
        var it := Insert(x, t, before);
        var r := [s[0]] + it;
        assert forall y :: y in it ==> y == x || y in t by {
          forall y | y in it
            ensures y == x || y in t
          {
            assert y in multiset(it);
          }
        }
        forall j | 0 < j < |r|
          ensures !before(r[j], r[0])
        {
          assert r[j] in it;
          if r[j] != x {
            var k :| 0 <= k < |t| && t[k] == r[j];
            assert t[k] == s[k + 1];
          }
        }
      } else {
        var r := [x] + s;
        forall j | 0 < j < |r|
          ensures !before(r[j], r[0])
        {
          assert r[j] == s[j - 1];
          if j > 1 {
            assert !before(s[j - 1], s[0]);
          }
        }
      }
    }
  }

  /** The sort produces a sorted permutation of its input. */
  lemma {:induction false} SortBySorted<T(!new)>(s: seq<T>, before: (T, T) -> bool)
    requires StrictWeakOrder(before)
    ensures SortedBy(SortBy(s, before), before)
  {
    if |s| > 0 {
      SortBySorted(s[1..], before);
      InsertSorted(s[0], SortBy(s[1..], before), before);
    }
  }

  /** Inserting `x` passes over a prefix whose elements all precede `x`. */
  lemma {:induction false} InsertAfterPrefix<T>(x: T, a: seq<T>, b: seq<T>, before: (T, T) -> bool)
    requires forall y :: y in a ==> before(y, x)
    ensures Insert(x, a + b, before) == a + Insert(x, b, before)
  {
    if |a| > 0 {
      assert (a + b)[0] == a[0] && a[0] in a;
      assert (a + b)[1..] == a[1..] + b;
      assert forall y :: y in a[1..] ==> y in a;
      InsertAfterPrefix(x, a[1..], b, before);
      assert a == [a[0]] + a[1..];
    } else {
      assert a + b == b;
    }
  }
}

=== FILE: text.dfy ===
/** The string operations the services and the client rely on: trimming
    (Python `str.strip`, JavaScript `String.prototype.trim`), lower-casing
    (Python `str.lower`) and substring search (Python `in`). Only the ASCII
    white space and the ASCII letters are given special meaning. */
module Text {

  /** Whose notion of white space applies: JavaScript's `trim` in the
      client, or Python's `str.strip` in the services. */
  datatype Runtime = JavaScript | Python

  /** The ASCII white space of each runtime. Both count space, tab, line
      feed, vertical tab, form feed and carriage return; Python's
      `str.isspace` also counts the separators U+001C to U+001F. */
  predicate IsSpace(rt: Runtime, c: char) {
    || c == ' ' || c == '\t' || c == '\n' || c == '\r' || c == '\U{B}' || c == '\U{C}'
    || (rt == Python && '\U{1C}' <= c <= '\U{1F}')
  }

  /** True when `s` contains at least one character that is not white space. */
  predicate HasVisible(rt: Runtime, s: string) {
    exists i :: 0 <= i < |s| && !IsSpace(rt, s[i])
  }

  /** Drops leading white space. */
  function TrimStart(rt: Runtime, s: string): (r: string)
    ensures |r| <= |s| && r == s[|s| - |r|..]
    ensures |r| > 0 ==> !IsSpace(rt, r[0])
    ensures forall i :: 0 <= i < |s| - |r| ==> IsSpace(rt, s[i])
  {
    if |s| > 0 && IsSpace(rt, s[0]) then TrimStart(rt, s[1..]) else s
  }

  /** Drops trailing white space. */
  function TrimEnd(rt: Runtime, s: string): (r: string)
    ensures |r| <= |s| && r == s[..|r|]
    ensures |r| > 0 ==> !IsSpace(rt, r[|r| - 1])
    ensures forall i :: |r| <= i < |s| ==> IsSpace(rt, s[i])
  {
    if |s| > 0 && IsSpace(rt, s[|s| - 1]) then TrimEnd(rt, s[..|s| - 1]) else s
  }

  /** True when every character of `s` is white space. */
  predicate AllSpace(rt: Runtime, s: string) {
    forall k :: 0 <= k < |s| ==> IsSpace(rt, s[k])
  }

  /** `r` is a slice of `s` with only white space on either side of it. */
  predicate IsTrimmingOf(rt: Runtime, r: string, s: string) {
    exists i, j :: 0 <= i <= j <= |s| && r == s[i..j] && AllSpace(rt, s[..i]) && AllSpace(rt, s[j..])
  }

  /** Python `str.strip()` or JavaScript `trim()`, by runtime: white space
      removed at both ends, and nothing else. */
  function Strip(rt: Runtime, s: string): (r: string)
    ensures |r| <= |s|
    ensures |r| > 0 ==> !IsSpace(rt, r[0]) && !IsSpace(rt, r[|r| - 1])
    ensures IsTrimmingOf(rt, r, s)
  {
    var t := TrimStart(rt, s);
    var r := TrimEnd(rt, t);
    TrimmedSlice(rt, s, t, r);
    var i, j := |s| - |t|, |s| - |t| + |r|;
    assert r == s[i..j] && AllSpace(rt, s[..i]) && AllSpace(rt, s[j..]);
    r
  }

  /** A suffix of `s` with only white space before it, cut down to a prefix
      with only white space after it, is a slice of `s` with only white
      space on either side. */
  lemma TrimmedSlice(rt: Runtime, s: string, t: string, r: string)
    requires |t| <= |s| && t == s[|s| - |t|..]
    requires |r| <= |t| && r == t[..|r|]
    requires forall k :: 0 <= k < |s| - |t| ==> IsSpace(rt, s[k])
    requires forall k :: |r| <= k < |t| ==> IsSpace(rt, t[k])
    ensures var i := |s| - |t|;
      && r == s[i..i + |r|]
      && AllSpace(rt, s[..i]) && AllSpace(rt, s[i + |r|..])
  {
    var i := |s| - |t|;
    assert AllSpace(rt, s[..i]) by {
      forall k | 0 <= k < i
        ensures IsSpace(rt, s[..i][k])
      {
        assert s[..i][k] == s[k];
      }
    }
    var after := s[i + |r|..];
    assert AllSpace(rt, after) by {
      forall k | 0 <= k < |after|
        ensures IsSpace(rt, after[k])
      {
        assert after[k] == t[|r| + k];
      }
    }
  }

  /** Stripping leaves nothing exactly when the string is all white space. */
  lemma {:induction false} StripEmptyIff(rt: Runtime, s: string)
    ensures |Strip(rt, s)| > 0 <==> HasVisible(rt, s)
  {
    var t := TrimStart(rt, s);
    var k := |s| - |t|;
    if |Strip(rt, s)| > 0 {
      assert !IsSpace(rt, Strip(rt, s)[0]);
      assert Strip(rt, s)[0] == t[0] == s[k];
    }
    if HasVisible(rt, s) {
      var i :| 0 <= i < |s| && !IsSpace(rt, s[i]);
      assert k <= i;
      assert t[i - k] == s[i];
      assert |Strip(rt, s)| > i - k;
    }
  }

  /** Stripping twice is stripping once. */
  lemma StripIdempotent(rt: Runtime, s: string)
    ensures Strip(rt, Strip(rt, s)) == Strip(rt, s)
  {
    var r := Strip(rt, s);
    if |r| > 0 {
      assert TrimStart(rt, r) == r;
      assert TrimEnd(rt, r) == r;
    }
  }

  /** Python strips the information separators, JavaScript keeps them: a
      separator before a visible character goes in Python and stays in the
      browser (U+001C before "W" strips to "W" only in Python). */
  lemma SeparatorsStripOnlyInPython(sep: char, w: char)
    requires '\U{1C}' <= sep <= '\U{1F}' && !IsSpace(Python, w)
    ensures Strip(Python, [sep, w]) == [w]
    ensures Strip(JavaScript, [sep, w]) == [sep, w]
  {
    PythonDropsSeparator(sep, w);
    JavaScriptKeepsSeparator(sep, w);
  }

  /** Python's trim drops a leading separator. */
  lemma PythonDropsSeparator(sep: char, w: char)
    requires '\U{1C}' <= sep <= '\U{1F}' && !IsSpace(Python, w)
    ensures TrimEnd(Python, TrimStart(Python, [sep, w])) == [w]
  {
    assert [sep, w][1..] == [w];
    assert TrimStart(Python, [w]) == [w];
  }

  /** JavaScript's trim keeps a leading separator. */
  lemma JavaScriptKeepsSeparator(sep: char, w: char)
    requires '\U{1C}' <= sep <= '\U{1F}' && !IsSpace(Python, w)
    ensures TrimEnd(JavaScript, TrimStart(JavaScript, [sep, w])) == [sep, w]
  {
    assert !IsSpace(JavaScript, sep);
    assert [sep, w][0] == sep;
  }

  /** Lower-cases one ASCII letter; other characters are unchanged. */
  function LowerChar(c: char): (r: char)
    ensures 'A' <= c <= 'Z' ==> 'a' <= r <= 'z' && r as int - c as int == 32
    ensures !('A' <= c <= 'Z') ==> r == c
  {
    if 'A' <= c <= 'Z' then (c as int + 32) as char else c
  }

  /** Python `str.lower()` restricted to ASCII letters. */
  function Lower(s: string): (r: string)
    ensures |r| == |s|
    ensures forall i :: 0 <= i < |s| ==> r[i] == LowerChar(s[i])
  {
    seq(|s|, i requires 0 <= i < |s| => LowerChar(s[i]))
  }

  /** Lower-casing twice is lower-casing once. */
  lemma LowerIdempotent(s: string)
    ensures Lower(Lower(s)) == Lower(s)
  {
  }

  /** Case-insensitive equality as the filters use it: `a.lower() == b.lower()`. */
  predicate EqualsIgnoringCase(a: string, b: string) {
    Lower(a) == Lower(b)
  }

  /** True when `p` is a prefix of `s`. */
  predicate StartsWith(s: string, p: string) {
    |p| <= |s| && s[..|p|] == p
  }

  /** True when `p` is a suffix of `s`. */
  predicate EndsWith(s: string, p: string) {
    |p| <= |s| && s[|s| - |p|..] == p
  }

  /** True when `sub` occurs in `s` starting at position `k`. */
  predicate OccursAt(s: string, sub: string, k: int) {
    0 <= k <= |s| - |sub| && s[k..k + |sub|] == sub
  }

  /** Python `sub in s`: `sub` occurs in `s` at some position. */
  function Contains(s: string, sub: string): (r: bool)
    ensures r <==> exists k :: OccursAt(s, sub, k)
    decreases |s|
  {
    if StartsWith(s, sub) then
      assert OccursAt(s, sub, 0);
      true
    else if |s| == 0 then
      false
    else
      var r := Contains(s[1..], sub);
      assert !OccursAt(s, sub, 0);
      assert r ==> exists k :: OccursAt(s, sub, k) by {
        if r {
          var k :| OccursAt(s[1..], sub, k);
          assert s[1..][k..k + |sub|] == s[k + 1..k + 1 + |sub|];
          assert OccursAt(s, sub, k + 1);
        }
      }
      assert (exists k :: OccursAt(s, sub, k)) ==> r by {
        if exists k :: OccursAt(s, sub, k) {
          var k :| OccursAt(s, sub, k);
          assert s[1..][k - 1..k - 1 + |sub|] == s[k..k + |sub|];
          assert OccursAt(s[1..], sub, k - 1);
        }
      }
      r
  }

  /** The empty string occurs everywhere. */
  lemma ContainsEmpty(s: string)
    ensures Contains(s, "")
  {
  }
}
